=== FILE: README.md ===
# Installer wizard: page walk and key handling

This Dafny project models the core of a terminal wizard that collects the
answers for an Arch Linux installation. The answers are:

- whether to install GRUB;
- the EFI and root partitions, and whether to format the root partition;
- the filesystem, locale, hostname and user name;
- the user and root passwords;
- the kernel, GPU driver and desktop environment.

It shows a summary and ends on a "finished" page. Nothing is installed. The
model covers two files:

- `src/app.rs`:
  - the sixteen pages in their fixed order;
  - the saturating `next_page` / `prev_page` moves;
  - the answers record `AppState` and its start-up defaults;
  - `prompt_password`, which stores a secret as the root password when the
    prompt's lower-cased text contains "root", and as the user password
    otherwise.
- `src/ui.rs`: the event loop `run_app`. It mutates the answers it is
  handed (`app: &mut AppState`) and two locals, the text buffer `input` and
  the list cursor `select_idx`. Together they become the record `Ui.Wizard`, and one loop iteration becomes the pure function
  `Ui.Step`. Its outcome is one of:
  - the loop keeps running with a new state;
  - it breaks (Esc or "q" on the last page);
  - it would panic, which is indexing the filesystem list past its end.

Rendering is modelled only as far as it decides two things: which row a
selection list highlights (`Ui.HighlightedIndex`), and which text a
free-text box shows (`Ui.ShownText`).

Modules, one per concern:

- `Wrappers`: `Option`.
- `Text`: `str::trim` over Unicode White_Space, ASCII lower-casing and
  substring search.
- `App`: `src/app.rs`.
- `Ui`: one iteration of the loop.
- `UiRun`: key sequences fed to the loop from start-up.
- `EntrySync`: the discrepancies under "## Findings" between what a page
  shows and what Enter stores, and their corrections.

Several behaviours follow from the order and the guards of the match arms in
`run_app`:

- On a free-text page, Backspace on an empty buffer does nothing; it never
  goes back a page. The `Backspace` arm (ui.rs:289) comes before the guarded
  `Esc | Backspace if input.is_empty()` arm (ui.rs:305). Only Esc on an empty
  buffer goes back.
- Esc with text in the buffer does nothing.
- The cursor is never set from the stored answer. Only the highlight is (see
  "## Findings").
- The text buffer is never set from the stored answer either. The box shows
  the stored answer, but Enter stores the buffer (see "## Findings").
- The password prompt decides the target field by the text of its label
  (ui.rs:314, 324; app.rs:133), not by the calling page. The model proves
  that each page's label routes to that page's own field.

## Model

| member | source | states |
|---|---|---|
| App.NextPage | src/app.rs:87-107 | Forward move: one position further in the page order, except that Finished stays Finished |
| App.PrevPage | src/app.rs:109-129 | Backward move: one position back in the page order, except that Welcome stays Welcome |
| App.PagesAtOrdinal | src/app.rs:26-44 | Every page appears in the page order at its own position |
| App.OrdinalOfPages | src/app.rs:26-44 | Each position of the page order holds the page with that position, so the order lists each page once |
| App.MovesFollowPages | src/app.rs:87-129 | Both moves are "next / previous element of the page order", saturating at the two ends |
| App.PrevAfterNext | src/app.rs:87-129 | Going back undoes going forward on every page but Finished |
| App.NextAfterPrev | src/app.rs:87-129 | Going forward undoes going back on every page but Welcome |
| App.NextPageNOrdinal | src/app.rs:87-107 | n forward moves advance n positions, capped at the last page |
| App.PrevPageNOrdinal | src/app.rs:109-129 | n backward moves retreat n positions, floored at the first page |
| App.WelcomeReachesFinished | src/app.rs:89-106 | From Welcome, n forward moves reach Finished exactly when n >= 15 |
| App.FinishedReturnsToWelcome | src/app.rs:111-128 | From Finished, n backward moves reach Welcome exactly when n >= 15 |
| App.Default | src/app.rs:65-84 | Start-up answers: Welcome page; ext4, en_US.UTF-8, archlinux, user; kernel both, GPU none, desktop none; the other six unset |
| App.OutsideKeepsOthers | src/app.rs:46-63 | Answers that agree outside one page's field agree on the field of every other page |
| App.StoreSecret | src/app.rs:133-137 | The secret lands in exactly one password field, chosen by the flag; page and all other answers unchanged |
| App.PromptPassword | src/app.rs:131-138 | The dialog's answer for the prompt is stored as the root password iff the prompt names root, else as the user password; nothing else changes |
| App.RootPromptIff | src/app.rs:133 | The routing test holds exactly when four consecutive characters of the prompt spell "root" in any ASCII case |
| App.RootPromptRoutesToRoot | src/app.rs:133-134 | The prompt "Root Password" routes to the root password |
| App.RootPromptHasT | src/app.rs:133 | Any prompt that routes to root contains a "t" or "T" |
| App.NoTRoutesToUser | src/app.rs:133-136 | A prompt with no "t" or "T" routes to the user password |
| App.UserPromptRoutesToUser | src/app.rs:133-136 | The prompt "User Password" routes to the user password |
| Text.Lower | src/app.rs:133 | Lower-casing keeps the length and maps each character on its own, changing only A-Z |
| Text.Contains | src/app.rs:133 | `str::contains` succeeds exactly when some offset holds the needle |
| Text.ContainsFromIff | src/app.rs:133 | The search from offset i succeeds exactly when some offset from i on holds the needle |
| Text.TrimStart | src/ui.rs:294-298 | Drops a whitespace-only prefix and leaves a result that does not start with whitespace |
| Text.TrimEnd | src/ui.rs:294-298 | Drops a whitespace-only suffix and leaves a result that does not end with whitespace |
| Text.Trim | src/ui.rs:294-298 | The result neither starts nor ends with whitespace and is a slice of the input with only whitespace cut off each side |
| Text.WhitespaceShift | src/ui.rs:294-298 | Whitespace found in a suffix of a string is whitespace of the string at the shifted positions |
| Text.CoreUnique | src/ui.rs:294-298 | Two whitespace-only cuts with trimmed remainders leave the same remainder |
| Text.TrimUnique | src/ui.rs:294-298 | The result is the only trimmed slice reachable by cutting whitespace off the ends |
| Text.TrimmedIsFixed | src/ui.rs:294-298 | Text without surrounding whitespace is stored exactly as typed |
| Text.TrimIdempotent | src/ui.rs:294-298 | Trimming twice is trimming once |
| Text.TrimEmpty | src/ui.rs:294-298 | An empty buffer trims to the empty string |
| Text.TrimExample | src/ui.rs:297 | " foo " trims to "foo" |
| Ui.PageKinds | src/ui.rs:162-346 | Every page is handled by exactly one of the selection, free-text and informational arms |
| Ui.Options | src/ui.rs:169-283 | Every selection list has two to four rows |
| Ui.KernelAt | src/ui.rs:220-225 | Cursor rows 0-2 store a kernel and later rows store nothing; the stored kernel is the one listed at that row |
| Ui.GpuAt | src/ui.rs:243-249 | Cursor rows 0-3 store a driver and later rows store nothing; the stored driver is the one listed at that row |
| Ui.DesktopAt | src/ui.rs:267-273 | Cursor rows 0-3 store a desktop and later rows store nothing; the stored desktop is the one listed at that row |
| Ui.KernelIndex | src/ui.rs:107-111 | The row showing a kernel choice lies inside the kernel list |
| Ui.GpuIndex | src/ui.rs:116-121 | The row showing a driver lies inside the GPU list |
| Ui.DesktopIndex | src/ui.rs:126-131 | The row showing a desktop lies inside the desktop list |
| Ui.VariantsRoundTrip | src/ui.rs:105-131 | The row drawn for each answer is the row that stores that answer back |
| Ui.Position | src/ui.rs:80 | The search finds something iff the name is listed; the hit is the first row holding the name |
| Ui.FilesystemDisplayIndex | src/ui.rs:77-81 | Highlights the row naming the stored filesystem (ext4 when unset), and the first row when the name is not listed |
| Ui.KernelDisplayIndex | src/ui.rs:105-113 | Highlights the row that stores the kernel answer, with "both" when unset |
| Ui.GpuDisplayIndex | src/ui.rs:114-123 | Highlights the row that stores the driver answer, with "None" when unset |
| Ui.DesktopDisplayIndex | src/ui.rs:124-133 | Highlights the row that stores the desktop answer, with "None" when unset |
| Ui.ShownText | src/ui.rs:65-93 | A free-text box draws the page's stored answer ("" when unset), never the buffer being typed |
| Ui.HighlightedIndex | src/ui.rs:61-133 | The yes/no lists highlight the cursor; the other four highlight the stored answer's row and ignore the cursor |
| Ui.Commit | src/ui.rs:178-275 | Enter writes the row under the cursor into the page's own field only, as "yes" iff row 0 on the yes/no pages; it panics only on the filesystem list past its end |
| Ui.StoreText | src/ui.rs:293-300 | The text becomes the answer of the current free-text page and of no other field |
| Ui.SelectionKey | src/ui.rs:169-283 | A selection page never quits; it panics only on the filesystem overrun; it moves at most one page and resets the cursor when it does; it changes only its own answer and keeps the state consistent; a character or any other unlisted key changes nothing (the `_ => {}` arms) |
| Ui.TextKey | src/ui.rs:284-311 | A free-text page always keeps running, moves at most one page, changes only its own answer and keeps the state consistent; Up, Down and any other unlisted key change nothing (ui.rs:309) |
| Ui.InfoKey | src/ui.rs:312-340 | The password and summary pages always keep running, move at most one page and change at most their own answer |
| Ui.PasswordPromptRoutes | src/ui.rs:314-324 | Each password page's label routes the secret to that page's own field |
| Ui.AskPassword | src/ui.rs:312-331 | Enter on a password page stores the dialog's answer for that page's label in that page's field only |
| Ui.AskPasswordIsPromptPassword | src/ui.rs:312-331 | What a password page stores equals `prompt_password` called with the page's label |
| Ui.WelcomeKey | src/ui.rs:163-168 | On Welcome, Enter moves to GrubInstall with the cursor reset and no answer changed; every other key, Esc included, changes nothing |
| Ui.FinishedKey | src/ui.rs:341-345 | On Finished, the loop breaks iff the key is Esc or "q", and otherwise nothing changes |
| Ui.KeyStep | src/ui.rs:162-346 | Breaks iff Esc or "q" on Finished; panics iff Enter on the filesystem list past its end; otherwise moves at most one page, changes only the current page's answer and keeps the state consistent |
| Ui.Step | src/ui.rs:159-350 | One iteration: breaks iff Esc or "q" on Finished; panics iff Enter overruns the filesystem list; moves at most one page, changes only the current page's answer and keeps the state consistent; a timeout or non-key event leaves the state exactly as it was |
| Ui.DownMovesCursor | src/ui.rs:175-176 | Down on a selection page changes only the cursor, to (cursor + 1) mod the list length |
| Ui.UpMovesCursor | src/ui.rs:172-174 | Up on a selection page changes only the cursor, to (cursor + length - 1) mod the list length |
| Ui.CursorWraps | src/ui.rs:172-176 | Inside the list, the modular moves step one row and wrap only at the ends |
| Ui.DownWraps | src/ui.rs:175-176 | From a consistent state, Down goes to the next row, and from the last row to the first |
| Ui.UpWraps | src/ui.rs:172-174 | From a consistent state, Up goes to the previous row, and from the first row to the last |
| Ui.UpUndoesDown | src/ui.rs:172-176 | Down keeps the cursor in the list, and Up then restores the exact state |
| Ui.DownUndoesUp | src/ui.rs:172-176 | Up keeps the cursor in the list, and Down then restores the exact state |
| Ui.SelectionEnterCommits | src/ui.rs:178-275 | From a consistent state, Enter stores the row under the cursor in the page's field, sets every enum answer, advances, resets the cursor and changes nothing else |
| Ui.SelectionBackGoesBack | src/ui.rs:188-191 | Esc and Backspace on a selection page go back one page with the cursor reset and the answers untouched |
| Ui.TypingEditsBuffer | src/ui.rs:286-291 | A character is appended to the buffer; Backspace drops the last character and never leaves the page, even on an empty buffer |
| Ui.TextEnterStoresTrimmed | src/ui.rs:292-304 | Enter stores the trimmed buffer as the page's answer, empties the buffer, advances and touches no other answer |
| Ui.TextEscapeNeedsEmptyBuffer | src/ui.rs:305-309 | Esc goes back iff the buffer is empty, and otherwise does nothing |
| Ui.UserPasswordEnter | src/ui.rs:312-316 | Enter on the user-password page stores the dialog's answer as the user password and moves to the root-password page |
| Ui.RootPasswordEnter | src/ui.rs:322-326 | Enter on the root-password page stores the dialog's answer as the root password and moves to the Kernel page |
| Ui.InfoPagesEscapeGoesBack | src/ui.rs:317-338 | Esc on the password pages and the summary goes back one page and changes no answer |
| Ui.InfoPagesIgnoreOtherKeys | src/ui.rs:163-348 | On the informational pages every key but Enter and Esc, and every non-key event, leaves the state exactly as it was; on Welcome Esc is ignored too |
| Ui.FinishedOnlyQuits | src/ui.rs:341-345 | On Finished, the loop breaks iff Esc or "q"; every other event, Enter included, leaves the state as it was |
| UiRun.Initial | src/ui.rs:35-37 | The loop starts on Welcome with an empty buffer and the cursor on row 0, in a consistent state |
| UiRun.Run | src/ui.rs:39-351 | The loop over a sequence of events: no events leave the state as it was, and from a consistent state it never panics and stays consistent |
| UiRun.RunKeepsWf | src/ui.rs:39-351 | From a consistent state, no sequence of events panics, and the state stays consistent |
| UiRun.ReachableStatesWf | src/ui.rs:35-351 | Every state reached from start-up has the cursor inside the current list (0 off the lists) and an empty buffer off the text pages, and never panics |
| UiRun.RunAppend | src/ui.rs:39-351 | Feeding two event sequences one after the other is feeding their concatenation |
| UiRun.RunCons | src/ui.rs:39-351 | Feeding an event and then more is one iteration, then the rest from its result, unless the loop stopped |
| UiRun.Repeat | src/ui.rs:39-351 | n copies of the same event |
| UiRun.Typing | src/ui.rs:286-288 | One character key per character typed, in order |
| UiRun.RowAfterDownsIsMod | src/ui.rs:175-176 | Up to a full turn, stepping one row at a time with wrap-around lands on (row + k) mod n |
| UiRun.DownRepeated | src/ui.rs:175-176 | k presses of Down change only the cursor, which steps row by row and wraps past the end |
| UiRun.DownThenRest | src/ui.rs:175-176 | The first of k Down presses moves one row, and the others continue from there |
| UiRun.DownCycleReturns | src/ui.rs:175-176 | As many Down presses as the list has rows restore the exact state |
| UiRun.EnterAdvances | src/ui.rs:164-334 | From a consistent state, Enter always moves one page forward (Finished stays put), resets the cursor, leaves the buffer empty and keeps the state consistent |
| UiRun.EnterThenRest | src/ui.rs:164-334 | The first of k Enter presses advances one page, empties the buffer and changes only that page's answer; the rest continue from there |
| UiRun.EntersWalk | src/ui.rs:164-334 | k presses of Enter walk k pages forward from any consistent state and leave the cursor on row 0 and the buffer empty |
| UiRun.EntersKeepLaterAnswer | src/ui.rs:164-334 | Enter presses that stop at or before a page leave that page's answer alone |
| UiRun.EntersReachKernel | src/app.rs:66-106 | From start-up, eleven Enters reach the Kernel page with the default "both" still stored and the cursor on row 0 |
| UiRun.EntersReachLocale | src/app.rs:66-100 | From start-up, six Enters reach the Locale page with the default "en_US.UTF-8" still stored and an empty buffer |
| UiRun.FifteenEntersFinish | src/app.rs:89-106 | From start-up, pressing Enter on every page, fifteen times, reaches Finished |
| UiRun.ScenarioInstallGrub | src/ui.rs:163-187 | From start-up, Enter twice answers "yes" to installing GRUB and lands on the EFI partition page |
| UiRun.TypingFills | src/ui.rs:286-288 | Typing a string on a free-text page appends exactly that string to the buffer and changes nothing else |
| UiRun.TypeThenRest | src/ui.rs:286-288 | The first typed character goes onto the buffer; the rest is typed from there |
| UiRun.TypeAndEnter | src/ui.rs:286-304 | Typing s then Enter on an empty text page stores trim(s) as the answer, advances, and empties the buffer |
| UiRun.TypeTrimmedAndEnter | src/ui.rs:292-304 | On the EFI page, a typed name without surrounding spaces is stored exactly, and the wizard moves to the root partition page |
| UiRun.ScenarioEfiPartition | src/ui.rs:292-304 | Typing "/dev/sda1" and Enter on the EFI page stores "/dev/sda1" and moves to the root partition page |
| UiRun.ScenarioEfiEscape | src/ui.rs:305-308 | Esc at once on the EFI page returns to the GRUB question with the cursor on row 0 |
| UiRun.ScenarioHostnameTrim | src/ui.rs:297 | Typing " foo " and Enter on the hostname page stores "foo" |
| EntrySync.EntryIndex | src/ui.rs:77-133 | The corrected opening row is inside the list, and on the four answer-highlighting pages it is the highlighted row |
| EntrySync.EntryText | src/ui.rs:65-94 | The corrected opening buffer is the text the box shows on a free-text page, and empty elsewhere |
| EntrySync.SyncedStep | src/ui.rs:159-350 | The corrected loop opens each page with the cursor on the highlighted row and the buffer holding the text shown. Otherwise it agrees with `Ui.Step` on answers, on whether it runs, and on the exact outcome when it stops, and on the whole state when the page stays. It never panics from a consistent state |
| EntrySync.EnterOnArrivalReplacesKernel | src/ui.rs:219-227 | As written, after eleven Enters the Kernel list highlights "both" (the stored answer), but the next Enter stores linux |
| EntrySync.EnterAtEntryKeepsAnswer | src/ui.rs:201-275 | Enter with the cursor on the highlighted row stores the answer that row shows |
| EntrySync.SyncedEnterKeepsAnswer | src/ui.rs:105-113 | In the corrected loop, Enter pressed on arrival at a list page stores the answer that was highlighted |
| EntrySync.ArrowsLeaveHighlight | src/ui.rs:105-133 | As written, on the four answer-highlighting lists Down moves the cursor (the row Enter commits) but not the highlighted row |
| EntrySync.SyncedHighlightIsCommitted | src/ui.rs:169-283 | With the cursor drawn as the highlight, Down moves the highlight one row with wrap-around and Enter then stores the highlighted row's answer |
| EntrySync.EnterOnUntouchedTextClears | src/ui.rs:292-304 | As written, Enter on a free-text page with an untouched buffer stores the empty string |
| EntrySync.EnterOnArrivalClearsLocale | src/ui.rs:83-86 | As written, after six Enters the Locale box shows "en_US.UTF-8", but the next Enter stores "" |
| EntrySync.SyncedTextEnterKeepsShown | src/ui.rs:292-304 | In the corrected loop, Enter pressed on arrival at a text page stores the shown text trimmed, so a shown answer without surrounding whitespace is kept |
| EntrySync.SyncedRun | src/ui.rs:39-351 | The corrected loop over no events leaves the state alone, and from a consistent state it never panics and stays consistent |
| EntrySync.SyncedTypingShows | src/ui.rs:286-288 | With the buffer drawn, typing on a text page appends exactly the typed text to what the box shows and changes nothing else |
| EntrySync.SyncedEnterStoresShown | src/ui.rs:292-302 | With the buffer drawn, Enter on a text page stores what the box shows, trimmed, advances, and touches no other answer |
| EntrySync.SyncedTypedTextIsStored | src/ui.rs:284-302 | In the corrected loop, a text page opens showing the stored answer, shows it followed by whatever is typed, and Enter stores exactly what is shown, trimmed |

## Left out

- `src/main.rs`: entering and leaving raw mode, building the terminal, and
  printing the error. `run_app` starts from `AppState::default()`, which is
  what `UiRun.Initial` uses.
- Rendering: frames, titles, the summary text and the insertion cursor. Only
  the row a selection list highlights and the text a free-text box shows are
  modelled.
- The 200 ms poll timeout and non-key terminal events (resize, mouse, focus)
  are the single `Idle` event, which changes nothing, as ui.rs:159 and 348 do.
- Key modifiers and key kinds (press, release, repeat) are not modelled.
  The loop compares only `key.code`.
- The masked password dialog is the parameter `ask: string -> string`, from
  prompt label to entered text. A read failure is the empty string, as the
  `unwrap_or_default` at app.rs:132 makes it.
- UiRun.Run: one `ask` serves a whole run, so a run answers each prompt label
  the same way every time. The program asks the dialog afresh on each Enter
  (app.rs:132), so a second visit to a password page can store a different
  secret. No property proved here depends on two visits agreeing.
- `str::to_lowercase` is modelled as ASCII lower-casing. The only use is the
  test for "root", and no non-ASCII character lower-cases to "r", "o" or "t".
  The two prompts passed in are ASCII.
- I/O errors from `terminal.draw(...)?`, `event::poll(...)?` and
  `event::read()?` end the loop with an error. They are left out because the
  terminal is not modelled.
- `usize` arithmetic in `select_idx + options_len - 1` is modelled on
  unbounded naturals. `UiRun.ReachableStatesWf` shows the cursor is always
  below 4, so no overflow can occur.
- Ui.HighlightedIndex: ratatui clamps an out-of-range selection when drawing.
  The contract states the index the code passes in, not what ratatui then
  draws.

## Findings

| source | as written | input that shows it | evidently intended | confidence | as-written member | corrected member |
|---|---|---|---|---|---|---|
| src/ui.rs:105-113, src/ui.rs:219-227 | The Filesystem, Kernel, GPU and desktop lists highlight the stored answer's row. Enter commits the row under `select_idx`, which every page change resets to 0. | Start the wizard and press Enter eleven times, answering the two password dialogs. The Kernel page highlights "both", the default. A twelfth Enter stores `linux`. | Opening a list page puts the cursor on the highlighted row, so Enter keeps the answer shown | high, not executed | EntrySync.EnterOnArrivalReplacesKernel | EntrySync.SyncedEnterKeepsAnswer |
| src/ui.rs:105-113, src/ui.rs:217-218 | On those four lists Up and Down change `select_idx`, but the list draws the stored answer's row, so the highlight does not move | On arrival at the Kernel page ("both" highlighted, cursor on row 0), press Down. The highlight stays on "both" while Enter would now store `linux-lts`. | The list draws the cursor, as the two yes/no lists do (ui.rs:63, 75) | high, not executed | EntrySync.ArrowsLeaveHighlight | EntrySync.SyncedHighlightIsCommitted |
| src/ui.rs:83-86, src/ui.rs:292-301 | A free-text box draws the stored answer. Enter stores the trimmed buffer, which is empty on arrival and is never drawn. | Start the wizard and press Enter six times. The Locale box shows "en_US.UTF-8", the default. A seventh Enter stores "". | The box draws the buffer, and the buffer opens holding the stored answer, so what is shown before and after typing is what Enter stores | high, not executed | EntrySync.EnterOnArrivalClearsLocale | EntrySync.SyncedTypedTextIsStored |

The corrected loop is `EntrySync.SyncedStep`. It differs from `Ui.Step` only
in how a page opens after a page change. The cursor opens on
`EntrySync.EntryIndex`, and the buffer opens on `EntrySync.EntryText`. The
corrected drawing of a list highlights the cursor (`EntrySync.SyncedHighlight`),
and the corrected text box draws the buffer (`EntrySync.SyncedShownText`).
`EntrySync.SyncedRun` runs the corrected loop over a sequence of events.
With the buffer prefilled, Esc on an untouched text page no longer goes back
until the buffer is emptied, because the guard at ui.rs:305 needs an empty
buffer.

=== FILE: app.dfy ===
/**
 The wizard's configuration state and page order (src/app.rs): the pages in
 their fixed linear order, the saturating forward and backward moves, the
 collected answers with their start-up defaults, and the routing of a captured
 password to the user or the root field.
 */
module App {
  import opened Wrappers
  import Text

  datatype KernelSelection = Linux | LinuxLTS | Both

  datatype GpuDriver = Intel | AMD | Nvidia | None

  datatype DesktopEnv = None | KDE | GNOME | GnomeLockKDE

  datatype Page =
    | Welcome
    | GrubInstall
    | EfiPartition
    | RootPartition
    | RootFormat
    | Filesystem
    | Locale
    | Hostname
    | Username
    | UserPassword
    | RootPassword
    | Kernel
    | GpuDriver
    | DesktopEnv
    | Summary
    | Finished

  /** The wizard's pages in the order the user walks through them. */
  const Pages: seq<Page> := [
    Welcome, GrubInstall, EfiPartition, RootPartition, RootFormat, Filesystem,
    Locale, Hostname, Username, UserPassword, RootPassword, Kernel,
    Page.GpuDriver, Page.DesktopEnv, Summary, Finished
  ]

  /** Position of a page in the walk; `Pages` lists every page exactly once, at its position. */
  function Ordinal(p: Page): (n: nat)
    ensures n < |Pages|
  {
    match p
    case Welcome => 0
    case GrubInstall => 1
    case EfiPartition => 2
    case RootPartition => 3
    case RootFormat => 4
    case Filesystem => 5
    case Locale => 6
    case Hostname => 7
    case Username => 8
    case UserPassword => 9
    case RootPassword => 10
    case Kernel => 11
    case GpuDriver => 12
    case DesktopEnv => 13
    case Summary => 14
    case Finished => 15
  }

  /** The last position of the walk. */
  const LastOrdinal: nat := |Pages| - 1

  /** Every page sits in the walk at its ordinal. */
  lemma PagesAtOrdinal(p: Page)
    ensures Pages[Ordinal(p)] == p
  {
  }

  /** Every position of the walk holds a page whose ordinal is that position. */
  lemma OrdinalOfPages(n: nat)
    requires n < |Pages|
    ensures Ordinal(Pages[n]) == n
  {
  }

  /** `next_page`: one step forward along the walk, staying put on the last page. */
  function NextPage(p: Page): (q: Page)
    ensures p == Finished ==> q == Finished
    ensures p != Finished ==> Ordinal(q) == Ordinal(p) + 1
  {
    match p
    case Welcome => GrubInstall
    case GrubInstall => EfiPartition
    case EfiPartition => RootPartition
    case RootPartition => RootFormat
    case RootFormat => Filesystem
    case Filesystem => Locale
    case Locale => Hostname
    case Hostname => Username
    case Username => UserPassword
    case UserPassword => RootPassword
    case RootPassword => Kernel
    case Kernel => Page.GpuDriver
    case GpuDriver => Page.DesktopEnv
    case DesktopEnv => Summary
    case Summary => Finished
    case Finished => Finished
  }

  /** `prev_page`: one step back along the walk, staying put on the first page. */
  function PrevPage(p: Page): (q: Page)
    ensures p == Welcome ==> q == Welcome
    ensures p != Welcome ==> Ordinal(q) + 1 == Ordinal(p)
  {
    match p
    case Welcome => Welcome
    case GrubInstall => Welcome
    case EfiPartition => GrubInstall
    case RootPartition => EfiPartition
    case RootFormat => RootPartition
    case Filesystem => RootFormat
    case Locale => Filesystem
    case Hostname => Locale
    case Username => Hostname
    case UserPassword => Username
    case RootPassword => UserPassword
    case Kernel => RootPassword
    case GpuDriver => Kernel
    case DesktopEnv => Page.GpuDriver
    case Summary => Page.DesktopEnv
    case Finished => Summary
  }

  /** Both moves agree with the walk order `Pages`, saturating at its two ends. */
  lemma MovesFollowPages(p: Page)
    ensures NextPage(p) == Pages[if Ordinal(p) == LastOrdinal then LastOrdinal else Ordinal(p) + 1]
    ensures PrevPage(p) == Pages[if Ordinal(p) == 0 then 0 else Ordinal(p) - 1]
  {
  }

  /** Going back undoes going forward, except on the last page where going forward does nothing. */
  lemma PrevAfterNext(p: Page)
    requires p != Finished
    ensures PrevPage(NextPage(p)) == p
  {
  }

  /** Going forward undoes going back, except on the first page where going back does nothing. */
  lemma NextAfterPrev(p: Page)
    requires p != Welcome
    ensures NextPage(PrevPage(p)) == p
  {
  }

  /** `n` forward moves. */
  function NextPageN(p: Page, n: nat): Page
    decreases n
  {
    if n == 0 then p else NextPageN(NextPage(p), n - 1)
  }

  /** `n` backward moves. */
  function PrevPageN(p: Page, n: nat): Page
    decreases n
  {
    if n == 0 then p else PrevPageN(PrevPage(p), n - 1)
  }

  /** `n` forward moves advance `n` positions, stopping at the last page. */
  lemma {:induction false} NextPageNOrdinal(p: Page, n: nat)
    ensures Ordinal(NextPageN(p, n)) == if Ordinal(p) + n < LastOrdinal then Ordinal(p) + n else LastOrdinal
    decreases n
  {
    if n > 0 {
      NextPageNOrdinal(NextPage(p), n - 1);
    }
  }

  /** `n` backward moves retreat `n` positions, stopping at the first page. */
  lemma {:induction false} PrevPageNOrdinal(p: Page, n: nat)
    ensures Ordinal(PrevPageN(p, n)) == if Ordinal(p) >= n then Ordinal(p) - n else 0
    decreases n
  {
    if n > 0 {
      PrevPageNOrdinal(PrevPage(p), n - 1);
    }
  }

  /** From the first page, fifteen forward moves reach the last page and no fewer do. */
  lemma WelcomeReachesFinished(n: nat)
    ensures NextPageN(Welcome, n) == Finished <==> n >= 15
  {
    NextPageNOrdinal(Welcome, n);
    OrdinalOfPages(LastOrdinal);
  }

  /** From the last page, fifteen backward moves reach the first page and no fewer do. */
  lemma FinishedReturnsToWelcome(n: nat)
    ensures PrevPageN(Finished, n) == Welcome <==> n >= 15
  {
    PrevPageNOrdinal(Finished, n);
    OrdinalOfPages(0);
  }

  /** The collected answers and the current page (`AppState`). */
  datatype AppState = AppState(
    page: Page,
    installGrub: Option<bool>,
    efiPartition: Option<string>,
    rootPartition: Option<string>,
    formatRoot: Option<bool>,
    filesystem: Option<string>,
    locale: Option<string>,
    hostname: Option<string>,
    username: Option<string>,
    userPassword: Option<string>,
    rootPassword: Option<string>,
    kernel: Option<KernelSelection>,
    gpuDriver: Option<GpuDriver>,
    desktopEnv: Option<DesktopEnv>
  )

  /**
   `a` and `b` hold the same answer in every field except, possibly, the one
   answered on page `p` (pages that answer nothing own no field). The page
   itself is not compared.
   */
  predicate SameAnswersOutside(a: AppState, b: AppState, p: Page) {
    && (p != GrubInstall ==> a.installGrub == b.installGrub)
    && (p != EfiPartition ==> a.efiPartition == b.efiPartition)
    && (p != RootPartition ==> a.rootPartition == b.rootPartition)
    && (p != RootFormat ==> a.formatRoot == b.formatRoot)
    && (p != Filesystem ==> a.filesystem == b.filesystem)
    && (p != Locale ==> a.locale == b.locale)
    && (p != Hostname ==> a.hostname == b.hostname)
    && (p != Username ==> a.username == b.username)
    && (p != UserPassword ==> a.userPassword == b.userPassword)
    && (p != RootPassword ==> a.rootPassword == b.rootPassword)
    && (p != Kernel ==> a.kernel == b.kernel)
    && (p != Page.GpuDriver ==> a.gpuDriver == b.gpuDriver)
    && (p != Page.DesktopEnv ==> a.desktopEnv == b.desktopEnv)
  }

  /** `a` and `b` hold the same answer in the field page `p` answers; pages that answer nothing own no field. */
  predicate SameAnswerOn(a: AppState, b: AppState, p: Page) {
    match p
    case GrubInstall => a.installGrub == b.installGrub
    case EfiPartition => a.efiPartition == b.efiPartition
    case RootPartition => a.rootPartition == b.rootPartition
    case RootFormat => a.formatRoot == b.formatRoot
    case Filesystem => a.filesystem == b.filesystem
    case Locale => a.locale == b.locale
    case Hostname => a.hostname == b.hostname
    case Username => a.username == b.username
    case UserPassword => a.userPassword == b.userPassword
    case RootPassword => a.rootPassword == b.rootPassword
    case Kernel => a.kernel == b.kernel
    case GpuDriver => a.gpuDriver == b.gpuDriver
    case DesktopEnv => a.desktopEnv == b.desktopEnv
    case _ => true
  }

  /** A change confined to page `q`'s answer leaves the answer of every other page alone. */
  lemma OutsideKeepsOthers(a: AppState, b: AppState, q: Page, p: Page)
    requires SameAnswersOutside(a, b, q) && q != p
    ensures SameAnswerOn(a, b, p)
  {
  }

  /** The answers of a fresh run (`Default::default`): five defaulted text answers and three defaulted choices, everything else unset, on the first page. */
  function Default(): (s: AppState)
    ensures s.page == Welcome && s.page == Pages[0]
    ensures s.filesystem == Some("ext4") && s.locale == Some("en_US.UTF-8")
    ensures s.hostname == Some("archlinux") && s.username == Some("user")
    ensures s.kernel == Some(Both) && s.gpuDriver == Some(GpuDriver.None) && s.desktopEnv == Some(DesktopEnv.None)
    ensures s.installGrub.None? && s.formatRoot.None?
    ensures s.efiPartition.None? && s.rootPartition.None?
    ensures s.userPassword.None? && s.rootPassword.None?
  {
    AppState(
      page := Welcome,
      installGrub := Option.None,
      efiPartition := Option.None,
      rootPartition := Option.None,
      formatRoot := Option.None,
      filesystem := Some("ext4"),
      locale := Some("en_US.UTF-8"),
      hostname := Some("archlinux"),
      username := Some("user"),
      userPassword := Option.None,
      rootPassword := Option.None,
      kernel := Some(Both),
      gpuDriver := Some(GpuDriver.None),
      desktopEnv := Some(DesktopEnv.None)
    )
  }

  /** The prompts the two password pages show. */
  const UserPasswordPrompt: string := "User Password"
  const RootPasswordPrompt: string := "Root Password"

  /** A prompt routes to the root password when its lower-cased form contains "root". */
  predicate IsRootPrompt(prompt: string) {
    Text.Contains(Text.Lower(prompt), "root")
  }

  /** The four characters of `prompt` from position `i` spell "root", ignoring ASCII case. */
  predicate SpellsRootAt(prompt: string, i: int) {
    0 <= i <= |prompt| - 4 && Text.Lower(prompt[i..i + 4]) == "root"
  }

  /** The prompt test, stated position by position. */
  lemma {:induction false} RootPromptIff(prompt: string)
    ensures IsRootPrompt(prompt) <==> exists i :: SpellsRootAt(prompt, i)
  {
    var low := Text.Lower(prompt);
    if i :| Text.OccursAt(low, "root", i) {
      assert Text.Lower(prompt[i..i + 4]) == low[i..i + 4];
      assert SpellsRootAt(prompt, i);
    }
    if i :| SpellsRootAt(prompt, i) {
      assert Text.Lower(prompt[i..i + 4]) == low[i..i + 4];
      assert Text.OccursAt(low, "root", i);
    }
  }

  /** The root-password page's prompt routes to the root password. */
  lemma RootPromptRoutesToRoot()
    ensures IsRootPrompt(RootPasswordPrompt)
  {
    var root := RootPasswordPrompt;
    assert root[0..4] == "Root";
    assert Text.Lower("Root") == "root";
    assert SpellsRootAt(root, 0);
    RootPromptIff(root);
  }

  /** A prompt that routes to the root password has a "t" in one case or the other. */
  lemma RootPromptHasT(prompt: string)
    requires IsRootPrompt(prompt)
    ensures 't' in prompt || 'T' in prompt
  {
    var low := Text.Lower(prompt);
    var i :| Text.OccursAt(low, "root", i);
    assert low[i..i + 4][3] == low[i + 3];
    assert Text.LowerChar(prompt[i + 3]) == 't';
    assert prompt[i + 3] in prompt;
  }

  /** A prompt without a "t" in either case routes to the user password. */
  lemma NoTRoutesToUser(prompt: string)
    requires 't' !in prompt && 'T' !in prompt
    ensures !IsRootPrompt(prompt)
  {
    if IsRootPrompt(prompt) {
      RootPromptHasT(prompt);
    }
  }

  /** The user-password page's prompt routes to the user password. */
  lemma UserPromptRoutesToUser()
    ensures !IsRootPrompt(UserPasswordPrompt)
  {
    NoTRoutesToUser(UserPasswordPrompt);
  }

  /**
   `prompt_password`: asks `prompt` (the masked-input dialog, which yields the
   empty string when reading fails) for a secret under `prompt`, and stores it
   as the root password when the prompt names root, as the user password
   otherwise. The page and every other answer stay as they were.
   */
  function PromptPassword(s: AppState, prompt: string, ask: string -> string): (r: AppState)
    ensures r.page == s.page
    ensures IsRootPrompt(prompt) ==> r.rootPassword == Some(ask(prompt)) && SameAnswersOutside(s, r, RootPassword)
    ensures !IsRootPrompt(prompt) ==> r.userPassword == Some(ask(prompt)) && SameAnswersOutside(s, r, UserPassword)
  {
    StoreSecret(s, IsRootPrompt(prompt), ask(prompt))
  }

  /** Stores `secret` as the root password when `toRoot`, as the user password otherwise. */
  function StoreSecret(s: AppState, toRoot: bool, secret: string): (r: AppState)
    ensures r.page == s.page
    ensures toRoot ==> r.rootPassword == Some(secret) && SameAnswersOutside(s, r, RootPassword)
    ensures !toRoot ==> r.userPassword == Some(secret) && SameAnswersOutside(s, r, UserPassword)
  {
    if toRoot then s.(rootPassword := Some(secret)) else s.(userPassword := Some(secret))
  }
}

=== FILE: entry_sync.dfy ===
/**
 What a page shows against what Enter stores (src/ui.rs).

 - The Filesystem, Kernel, GPU and desktop lists highlight the row of the
   stored answer (ui.rs:79-80, 107-131). Enter commits the row under the
   cursor, which every page change resets to the first row (for arrival at
   Kernel from RootPassword, ui.rs:326). So on arrival the highlighted row
   and the committed row can differ.
 - On those four lists the arrow keys move the cursor but not the highlight,
   which stays on the stored answer.
 - A free-text page's box draws the stored answer (ui.rs:66-92). Enter stores
   the trimmed buffer (ui.rs:294-298), which is empty on arrival. So Enter on
   an untouched page replaces the answer shown with the empty string; and
   since the buffer is never drawn, what is typed is not what is shown.

 `EnterOnArrivalReplacesKernel`, `ArrowsLeaveHighlight` and
 `EnterOnArrivalClearsLocale` exhibit these with the program as written
 (`Step`). `SyncedStep` opens every page with the cursor on the highlighted
 row and the buffer holding the text shown. `SyncedHighlight` draws the
 cursor and `SyncedShownText` draws the buffer. For these corrections
 `SyncedEnterKeepsAnswer`, `SyncedTextEnterKeepsShown`,
 `SyncedHighlightIsCommitted` and `SyncedTypedTextIsStored` prove that what
 is shown is what is stored.
 */
module EntrySync {
  import opened Wrappers
  import opened App
  import opened Ui
  import opened UiRun
  import Text

  /** The row a page should open at: the stored answer's row on the four pages that show one, the first row elsewhere. */
  function EntryIndex(app: AppState): (i: nat)
    ensures IsSelectionPage(app.page) ==> i < |Options(app.page)|
    ensures !IsSelectionPage(app.page) ==> i == 0
    ensures IsSelectionPage(app.page) && !app.page.GrubInstall? && !app.page.RootFormat? ==>
      i == HighlightedIndex(Wizard(app, [], 0))
  {
    match app.page
    case Filesystem => FilesystemDisplayIndex(app.filesystem)
    case Kernel => KernelDisplayIndex(app.kernel)
    case GpuDriver => GpuDisplayIndex(app.gpuDriver)
    case DesktopEnv => DesktopDisplayIndex(app.desktopEnv)
    case _ => 0
  }

  /** The buffer a page should open with: the text its box shows on a free-text page, nothing elsewhere. */
  function EntryText(app: AppState): (t: string)
    ensures IsTextPage(app.page) ==> t == TextAnswer(app, app.page).UnwrapOr("")
    ensures !IsTextPage(app.page) ==> t == []
  {
    if IsTextPage(app.page) then ShownText(app) else []
  }

  /**
   One loop iteration with the cursor opened on the stored answer, and the
   buffer on the text shown, whenever the page changes.
   */
  function SyncedStep(w: Wizard, e: Event, ask: string -> string): (o: Outcome)
    ensures o.Running? && o.next.app.page != w.app.page ==>
      o.next.selectIdx == EntryIndex(o.next.app) && o.next.input == EntryText(o.next.app)
    ensures o.Running? <==> Step(w, e, ask).Running?
    ensures !o.Running? ==> o == Step(w, e, ask)
    ensures o.Running? ==> o.next.app == Step(w, e, ask).next.app
    ensures o.Running? && o.next.app.page == w.app.page ==> o.next == Step(w, e, ask).next
    ensures Wf(w) ==> !o.Panic? && (o.Running? ==> Wf(o.next))
  {
    match Step(w, e, ask)
    case Running(v) =>
      if v.app.page != w.app.page then Running(v.(selectIdx := EntryIndex(v.app), input := EntryText(v.app)))
      else Running(v)
    case Quit => Quit
    case Panic => Panic
  }

  /**
   With the program as written: from start-up, eleven presses of Enter reach
   the Kernel page (the two password pages' Enter opens the dialog, which
   reads its own keys and is the `ask` parameter here), whose list highlights "both" (the default answer); the
   twelfth press stores `Linux` instead. The count is pinned by the requires,
   so the verifier does not unfold the eleven steps literally.
   */
  lemma EnterOnArrivalReplacesKernel(k: nat, ask: string -> string)
    requires k == 11
    ensures Run(Initial(), Repeat(Key(Enter), k), ask).Running?
    ensures var v := Run(Initial(), Repeat(Key(Enter), k), ask).next;
      && v.app.page == Kernel
      && v.app.kernel == Some(Both)
      && KernelOptions[HighlightedIndex(v)] == "both"
      && Step(v, Key(Enter), ask).Running?
      && Step(v, Key(Enter), ask).next.app.kernel == Some(Linux)
  {
    EntersReachKernel(k, ask);
    var v := Run(Initial(), Repeat(Key(Enter), k), ask).next;
    assert HighlightedIndex(v) == 2;
    SelectionEnterCommits(v, ask);
  }

  /** Enter with the cursor on a page's entry row stores the answer that row shows. */
  lemma EnterAtEntryKeepsAnswer(v: Wizard, ask: string -> string)
    requires Wf(v) && IsSelectionPage(v.app.page) && v.selectIdx == EntryIndex(v.app)
    ensures Step(v, Key(Enter), ask).Running?
    ensures var a := Step(v, Key(Enter), ask).next.app;
      && (v.app.page == Kernel ==> a.kernel == Some(v.app.kernel.UnwrapOr(Both)))
      && (v.app.page == Page.GpuDriver ==> a.gpuDriver == Some(v.app.gpuDriver.UnwrapOr(GpuDriver.None)))
      && (v.app.page == Page.DesktopEnv ==> a.desktopEnv == Some(v.app.desktopEnv.UnwrapOr(DesktopEnv.None)))
      && (v.app.page == Filesystem && v.app.filesystem.UnwrapOr("ext4") in FilesystemOptions ==>
            a.filesystem == Some(v.app.filesystem.UnwrapOr("ext4")))
  {
    SelectionEnterCommits(v, ask);
    var a := Step(v, Key(Enter), ask).next.app;
    if v.app.page == Kernel {
      assert KernelIndex(a.kernel.value) == KernelIndex(v.app.kernel.UnwrapOr(Both));
    } else if v.app.page == Page.GpuDriver {
      assert GpuIndex(a.gpuDriver.value) == GpuIndex(v.app.gpuDriver.UnwrapOr(GpuDriver.None));
    } else if v.app.page == Page.DesktopEnv {
      assert DesktopIndex(a.desktopEnv.value) == DesktopIndex(v.app.desktopEnv.UnwrapOr(DesktopEnv.None));
    }
  }

  /**
   With the cursor opened on the stored answer: arriving at a selection page
   and pressing Enter at once stores the answer the list was showing, so the
   enum answers stay as they were (unset ones take the default shown) and a
   filesystem name from the list stays.
   */
  lemma SyncedEnterKeepsAnswer(w: Wizard, e: Event, ask: string -> string)
    requires Wf(w)
    requires SyncedStep(w, e, ask).Running?
    requires SyncedStep(w, e, ask).next.app.page != w.app.page
    requires IsSelectionPage(SyncedStep(w, e, ask).next.app.page)
    ensures var v := SyncedStep(w, e, ask).next;
      && Step(v, Key(Enter), ask).Running?
      && (v.app.page == Kernel ==>
            Step(v, Key(Enter), ask).next.app.kernel == Some(v.app.kernel.UnwrapOr(Both)))
      && (v.app.page == Page.GpuDriver ==>
            Step(v, Key(Enter), ask).next.app.gpuDriver == Some(v.app.gpuDriver.UnwrapOr(GpuDriver.None)))
      && (v.app.page == Page.DesktopEnv ==>
            Step(v, Key(Enter), ask).next.app.desktopEnv == Some(v.app.desktopEnv.UnwrapOr(DesktopEnv.None)))
      && (v.app.page == Filesystem && v.app.filesystem.UnwrapOr("ext4") in FilesystemOptions ==>
            Step(v, Key(Enter), ask).next.app.filesystem == Some(v.app.filesystem.UnwrapOr("ext4")))
  {
    var v := SyncedStep(w, e, ask).next;
    EnterAtEntryKeepsAnswer(v, ask);
  }

  /**
   With the program as written: on the four lists that draw the stored
   answer, Down moves the cursor, so it changes the row Enter commits, but
   leaves the highlighted row where it was.
   */
  lemma ArrowsLeaveHighlight(w: Wizard, ask: string -> string)
    requires Wf(w) && IsSelectionPage(w.app.page) && !w.app.page.GrubInstall? && !w.app.page.RootFormat?
    ensures Step(w, Key(Down), ask).Running?
    ensures var v := Step(w, Key(Down), ask).next;
      HighlightedIndex(v) == HighlightedIndex(w) && v.selectIdx != w.selectIdx
  {
    DownWraps(w, ask);
  }

  /** The corrected drawing of a selection list: the highlight is the cursor on every list. */
  function SyncedHighlight(w: Wizard): nat
    requires IsSelectionPage(w.app.page)
  {
    w.selectIdx
  }

  /**
   With the cursor drawn: Down moves the highlight one row, wrapping past the
   end, and Enter then stores the answer of the highlighted row.
   */
  lemma SyncedHighlightIsCommitted(w: Wizard, ask: string -> string)
    requires Wf(w) && IsSelectionPage(w.app.page)
    ensures Step(w, Key(Down), ask).Running?
    ensures var v := Step(w, Key(Down), ask).next;
      && SyncedHighlight(v) == (if SyncedHighlight(w) + 1 == |Options(w.app.page)| then 0 else SyncedHighlight(w) + 1)
      && Step(v, Key(Enter), ask).Running?
      && (v.app.page == GrubInstall ==> Step(v, Key(Enter), ask).next.app.installGrub == Some(SyncedHighlight(v) == 0))
      && (v.app.page == RootFormat ==> Step(v, Key(Enter), ask).next.app.formatRoot == Some(SyncedHighlight(v) == 0))
      && (v.app.page == Filesystem ==>
            Step(v, Key(Enter), ask).next.app.filesystem == Some(FilesystemOptions[SyncedHighlight(v)]))
      && (v.app.page == Kernel ==> Step(v, Key(Enter), ask).next.app.kernel == KernelAt(SyncedHighlight(v)))
      && (v.app.page == Page.GpuDriver ==> Step(v, Key(Enter), ask).next.app.gpuDriver == GpuAt(SyncedHighlight(v)))
      && (v.app.page == Page.DesktopEnv ==> Step(v, Key(Enter), ask).next.app.desktopEnv == DesktopAt(SyncedHighlight(v)))
  {
    DownWraps(w, ask);
    var v := Step(w, Key(Down), ask).next;
    SelectionEnterCommits(v, ask);
    var a := Step(v, Key(Enter), ask).next.app;
    if v.app.page == Kernel {
      VariantsRoundTrip(a.kernel.value, GpuDriver.None, DesktopEnv.None);
    } else if v.app.page == Page.GpuDriver {
      VariantsRoundTrip(Both, a.gpuDriver.value, DesktopEnv.None);
    } else if v.app.page == Page.DesktopEnv {
      VariantsRoundTrip(Both, GpuDriver.None, a.desktopEnv.value);
    }
  }

  /** With the program as written: Enter on a free-text page whose buffer is untouched stores the empty string, whatever the box shows. */
  lemma EnterOnUntouchedTextClears(w: Wizard, ask: string -> string)
    requires IsTextPage(w.app.page) && w.input == []
    ensures Step(w, Key(Enter), ask).Running?
    ensures TextAnswer(Step(w, Key(Enter), ask).next.app, w.app.page) == Some("")
  {
    TextEnterStoresTrimmed(w, ask);
    Text.TrimEmpty();
  }

  /**
   With the program as written: from start-up, six presses of Enter reach the
   Locale page, whose box shows the default "en_US.UTF-8"; the seventh press
   stores the empty string instead. The count is pinned by the requires, as
   above.
   */
  lemma EnterOnArrivalClearsLocale(k: nat, ask: string -> string)
    requires k == 6
    ensures Run(Initial(), Repeat(Key(Enter), k), ask).Running?
    ensures var v := Run(Initial(), Repeat(Key(Enter), k), ask).next;
      && v.app.page == Locale
      && ShownText(v.app) == "en_US.UTF-8"
      && Step(v, Key(Enter), ask).Running?
      && Step(v, Key(Enter), ask).next.app.locale == Some("")
  {
    EntersReachLocale(k, ask);
    var v := Run(Initial(), Repeat(Key(Enter), k), ask).next;
    EnterOnUntouchedTextClears(v, ask);
  }

  /**
   With the buffer opened on the text shown: arriving at a free-text page and
   pressing Enter at once stores the text that was shown, trimmed, so an
   answer without surrounding whitespace stays as it was (an unset one
   becomes empty, which is also what was shown).
   */
  lemma SyncedTextEnterKeepsShown(w: Wizard, e: Event, ask: string -> string)
    requires Wf(w)
    requires SyncedStep(w, e, ask).Running?
    requires SyncedStep(w, e, ask).next.app.page != w.app.page
    requires IsTextPage(SyncedStep(w, e, ask).next.app.page)
    ensures var v := SyncedStep(w, e, ask).next;
      && v.input == ShownText(v.app)
      && Step(v, Key(Enter), ask).Running?
      && TextAnswer(Step(v, Key(Enter), ask).next.app, v.app.page) == Some(Text.Trim(ShownText(v.app)))
      && (Text.Trimmed(ShownText(v.app)) ==>
            TextAnswer(Step(v, Key(Enter), ask).next.app, v.app.page) == Some(ShownText(v.app)))
  {
    var v := SyncedStep(w, e, ask).next;
    TextEnterStoresTrimmed(v, ask);
    if Text.Trimmed(ShownText(v.app)) {
      Text.TrimmedIsFixed(ShownText(v.app));
    }
  }

  /** The corrected drawing of a free-text box: the box shows the buffer, as the corrected lists show the cursor. */
  function SyncedShownText(w: Wizard): string
    requires IsTextPage(w.app.page)
  {
    w.input
  }

  /** The corrected loop over a sequence of events, stopping at the first break or panic. */
  function SyncedRun(w: Wizard, events: seq<Event>, ask: string -> string): (o: Outcome)
    ensures events == [] ==> o == Running(w)
    ensures Wf(w) ==> !o.Panic? && (o.Running? ==> Wf(o.next))
    decreases |events|
  {
    if events == [] then Running(w)
    else
      match SyncedStep(w, events[0], ask)
      case Running(v) => SyncedRun(v, events[1..], ask)
      case Quit => Quit
      case Panic => Panic
  }

  /** With the buffer drawn: typing on a free-text page appends exactly the typed text to what the box shows and changes nothing else. */
  lemma {:induction false} SyncedTypingShows(w: Wizard, s: string, ask: string -> string)
    requires IsTextPage(w.app.page)
    ensures SyncedRun(w, Typing(s), ask).Running?
    ensures var v := SyncedRun(w, Typing(s), ask).next;
      && v.app == w.app
      && v.selectIdx == w.selectIdx
      && SyncedShownText(v) == SyncedShownText(w) + s
    decreases |s|
  {
    if s != [] {
      TypingEditsBuffer(w, s[0], ask);
      var u := w.(input := w.input + [s[0]]);
      assert SyncedStep(w, Key(Char(s[0])), ask) == Running(u);
      assert Typing(s)[1..] == Typing(s[1..]);
      SyncedTypingShows(u, s[1..], ask);
      assert u.input + s[1..] == w.input + s;
    }
  }

  /** With the buffer drawn: Enter on a free-text page stores what the box shows, trimmed, and touches no other answer. */
  lemma SyncedEnterStoresShown(w: Wizard, ask: string -> string)
    requires IsTextPage(w.app.page)
    ensures SyncedStep(w, Key(Enter), ask).Running?
    ensures var a := SyncedStep(w, Key(Enter), ask).next.app;
      && a.page == NextPage(w.app.page)
      && SameAnswersOutside(w.app, a, w.app.page)
      && TextAnswer(a, w.app.page) == Some(Text.Trim(SyncedShownText(w)))
  {
    TextEnterStoresTrimmed(w, ask);
  }

  /**
   The corrected text box end to end: on arrival at a free-text page it shows
   the stored answer, after typing `s` it shows that answer followed by `s`,
   and Enter then stores exactly what it shows, trimmed.
   */
  lemma SyncedTypedTextIsStored(w: Wizard, e: Event, s: string, ask: string -> string)
    requires Wf(w)
    requires SyncedStep(w, e, ask).Running?
    requires SyncedStep(w, e, ask).next.app.page != w.app.page
    requires IsTextPage(SyncedStep(w, e, ask).next.app.page)
    ensures var v := SyncedStep(w, e, ask).next;
      && SyncedShownText(v) == ShownText(v.app)
      && SyncedRun(v, Typing(s), ask).Running?
      && var u := SyncedRun(v, Typing(s), ask).next;
      && IsTextPage(u.app.page)
      && SyncedShownText(u) == ShownText(v.app) + s
      && SyncedStep(u, Key(Enter), ask).Running?
      && TextAnswer(SyncedStep(u, Key(Enter), ask).next.app, v.app.page) == Some(Text.Trim(ShownText(v.app) + s))
  {
    var v := SyncedStep(w, e, ask).next;
    SyncedTypingShows(v, s, ask);
    var u := SyncedRun(v, Typing(s), ask).next;
    SyncedEnterStoresShown(u, ask);
  }
}

=== FILE: text.dfy ===
/**
 The string operations the wizard applies to typed text and prompt labels:
 whitespace trimming (Rust's `str::trim`), lower-casing for the label test
 (`str::to_lowercase`) and substring search (`str::contains`).
 */
module Text {

  /** Unicode's White_Space property, the set of characters `str::trim` strips. */
  predicate IsWhitespace(c: char) {
    var n := c as int;
    || 0x09 <= n <= 0x0D
    || n == 0x20
    || n == 0x85
    || n == 0xA0
    || n == 0x1680
    || 0x2000 <= n <= 0x200A
    || n == 0x2028
    || n == 0x2029
    || n == 0x202F
    || n == 0x205F
    || n == 0x3000
  }

  /** Every character of `s` in positions `a` up to (not including) `b` is whitespace. */
  predicate WhitespaceBetween(s: string, a: int, b: int)
    requires 0 <= a <= b <= |s|
  {
    forall t :: a <= t < b ==> IsWhitespace(s[t])
  }

  /** `s` neither starts nor ends with whitespace. */
  predicate Trimmed(s: string) {
    s == [] || (!IsWhitespace(s[0]) && !IsWhitespace(s[|s| - 1]))
  }

  /** Cutting `s` down to `s[i..j]` removes nothing but whitespace. */
  predicate IsCore(s: string, i: int, j: int) {
    && 0 <= i <= j <= |s|
    && WhitespaceBetween(s, 0, i)
    && WhitespaceBetween(s, j, |s|)
  }

  /** Drops the leading whitespace: what is dropped is all whitespace, and what is kept does not start with it. */
  function TrimStart(s: string): (r: string)
    ensures |r| <= |s| && r == s[|s| - |r|..]
    ensures WhitespaceBetween(s, 0, |s| - |r|)
    ensures r == [] || !IsWhitespace(r[0])
  {
    if |s| > 0 && IsWhitespace(s[0]) then TrimStart(s[1..]) else s
  }

  /** Drops the trailing whitespace: what is dropped is all whitespace, and what is kept does not end with it. */
  function TrimEnd(s: string): (r: string)
    ensures |r| <= |s| && r == s[..|r|]
    ensures WhitespaceBetween(s, |r|, |s|)
    ensures r == [] || !IsWhitespace(r[|r| - 1])
  {
    if |s| > 0 && IsWhitespace(s[|s| - 1]) then TrimEnd(s[..|s| - 1]) else s
  }

  /** `str::trim`: the slice of `s` left after removing leading and trailing whitespace. */
  function Trim(s: string): (r: string)
    ensures Trimmed(r)
    ensures exists i, j :: IsCore(s, i, j) && r == s[i..j]
  {
    var t := TrimStart(s);
    var r := TrimEnd(t);
    var o := |s| - |t|;
    assert r == s[o..o + |r|];
    WhitespaceShift(s, o, |r|, |t|);
    r
  }

  /** Whitespace found in the suffix `s[o..]` is whitespace of `s`, `o` positions further on. */
  lemma WhitespaceShift(s: string, o: int, a: int, b: int)
    requires 0 <= o <= |s| && 0 <= a <= b <= |s| - o
    requires WhitespaceBetween(s[o..], a, b)
    ensures WhitespaceBetween(s, o + a, o + b)
  {
    forall k | o + a <= k < o + b ensures IsWhitespace(s[k]) {
      assert s[k] == s[o..][k - o];
    }
  }

  /** Two whitespace-only cuts that both leave a trimmed remainder leave the same remainder. */
  lemma CoreUnique(s: string, i: int, j: int, k: int, l: int)
    requires IsCore(s, i, j) && Trimmed(s[i..j])
    requires IsCore(s, k, l) && Trimmed(s[k..l])
    ensures s[i..j] == s[k..l]
  {
    if i < j {
      assert s[i..j][0] == s[i] && s[i..j][j - i - 1] == s[j - 1];
    }
    if k < l {
      assert s[k..l][0] == s[k] && s[k..l][l - k - 1] == s[l - 1];
    }
  }

  /** The trimmed slice is unique: any whitespace-only cut whose remainder starts and ends with non-whitespace is what `Trim` returns. */
  lemma TrimUnique(s: string, i: int, j: int)
    requires IsCore(s, i, j) && Trimmed(s[i..j])
    ensures Trim(s) == s[i..j]
  {
    var k, l :| IsCore(s, k, l) && Trim(s) == s[k..l];
    assert Trimmed(Trim(s));
    CoreUnique(s, i, j, k, l);
  }

  /** A string that neither starts nor ends with whitespace trims to itself. */
  lemma TrimmedIsFixed(s: string)
    requires Trimmed(s)
    ensures Trim(s) == s
  {
    assert s[0..|s|] == s;
    TrimUnique(s, 0, |s|);
  }

  /** Trimming twice is trimming once. */
  lemma TrimIdempotent(s: string)
    ensures Trim(Trim(s)) == Trim(s)
  {
    TrimmedIsFixed(Trim(s));
  }

  /** An empty buffer trims to the empty string. */
  lemma TrimEmpty()
    ensures Trim([]) == []
  {
    TrimmedIsFixed([]);
  }

  /** Surrounding spaces go, inner characters stay: " foo " trims to "foo". */
  lemma TrimExample()
    ensures Trim(" foo ") == "foo"
  {
    var s := " foo ";
    assert s[1..4] == "foo";
    assert IsCore(s, 1, 4);
    TrimUnique(s, 1, 4);
  }

  /** ASCII lower-casing of one character. */
  function LowerChar(c: char): (d: char)
    ensures 'A' <= c <= 'Z' ==> 'a' <= d <= 'z' && d as int - c as int == 32
    ensures !('A' <= c <= 'Z') ==> d == c
  {
    if 'A' <= c <= 'Z' then (c as int + 32) as char else c
  }

  /** Lower-cases `s` character by character. */
  function Lower(s: string): (r: string)
    ensures |r| == |s|
    ensures forall i :: 0 <= i < |s| ==> r[i] == LowerChar(s[i])
  {
    if s == [] then [] else [LowerChar(s[0])] + Lower(s[1..])
  }

  /** `needle` occurs in `hay` at offset `i`. */
  predicate OccursAt(hay: string, needle: string, i: int) {
    0 <= i <= |hay| - |needle| && hay[i..i + |needle|] == needle
  }

  /** `str::contains`: tries every start position from the left. */
  predicate Contains(hay: string, needle: string)
    ensures Contains(hay, needle) <==> exists i :: OccursAt(hay, needle, i)
  {
    ContainsFromIff(hay, needle, 0);
    ContainsFrom(hay, needle, 0)
  }

  /** Some start position from `i` on holds `needle`. */
  predicate ContainsFrom(hay: string, needle: string, i: nat)
    decreases |hay| - i
  {
    if i + |needle| > |hay| then false
    else hay[i..i + |needle|] == needle || ContainsFrom(hay, needle, i + 1)
  }

  /** The search from `i` succeeds exactly when some offset from `i` on holds an occurrence. */
  lemma {:induction false} ContainsFromIff(hay: string, needle: string, i: nat)
    ensures ContainsFrom(hay, needle, i) <==> exists k :: i <= k && OccursAt(hay, needle, k)
    decreases |hay| - i
  {
    if i + |needle| <= |hay| {
      ContainsFromIff(hay, needle, i + 1);
      if hay[i..i + |needle|] == needle {
        assert OccursAt(hay, needle, i);
      }
      if k :| i <= k && OccursAt(hay, needle, k) {
        assert k == i || (i + 1 <= k && OccursAt(hay, needle, k));
      }
    }
  }
}

=== FILE: ui.dfy ===
/**
 The key-dispatch half of the wizard's event loop (src/ui.rs, `run_app`) as a
 pure step function, together with the option lists of the selection pages and
 the index a selection list highlights when drawn.

 The `Wizard` record gathers the state the loop mutates: the answers (the
 `app: &mut AppState` parameter of `run_app`) and its two locals, the text
 buffer of the free-text pages (`input`) and the cursor of the selection
 pages (`selectIdx`). One loop iteration that reads an event is one
 `Step`; the outcome says whether the loop keeps running, breaks (`Quit`) or
 would panic on an out-of-bounds index (`Panic`).
 */
module Ui {
  import opened Wrappers
  import opened App
  import Text

  /** The key codes the loop tells apart; every other key is `OtherKey`. */
  datatype KeyCode = Char(c: char) | Enter | Esc | Backspace | Up | Down | OtherKey

  /** What one poll of the terminal yields: a key, or nothing the loop reacts to (a timeout, a resize, a mouse event). */
  datatype Event = Key(code: KeyCode) | Idle

  /** The loop's state: the answers, the text buffer and the selection cursor. */
  datatype Wizard = Wizard(app: AppState, input: string, selectIdx: nat)

  datatype Outcome = Running(next: Wizard) | Quit | Panic

  const YesNoOptions: seq<string> := ["Yes", "No"]
  const FilesystemOptions: seq<string> := ["ext4", "btrfs", "xfs"]
  const KernelOptions: seq<string> := ["linux", "linux-lts", "both"]
  const GpuOptions: seq<string> := ["Intel", "AMD", "NVIDIA", "None"]
  const DesktopOptions: seq<string> := ["None", "KDE Plasma", "GNOME", "GNOME lock screen + KDE"]

  /** Pages answered by picking from a list. */
  predicate IsSelectionPage(p: Page) {
    p.GrubInstall? || p.RootFormat? || p.Filesystem? || p.Kernel? || p.GpuDriver? || p.DesktopEnv?
  }

  /** Pages answered by typing. */
  predicate IsTextPage(p: Page) {
    p.EfiPartition? || p.RootPartition? || p.Locale? || p.Hostname? || p.Username?
  }

  /** Pages that only show text (the password pages hand over to a prompt). */
  predicate IsInfoPage(p: Page) {
    p.Welcome? || p.UserPassword? || p.RootPassword? || p.Summary? || p.Finished?
  }

  /** Every page is of exactly one kind. */
  lemma PageKinds(p: Page)
    ensures IsSelectionPage(p) || IsTextPage(p) || IsInfoPage(p)
    ensures !(IsSelectionPage(p) && IsTextPage(p))
    ensures !(IsSelectionPage(p) && IsInfoPage(p))
    ensures !(IsTextPage(p) && IsInfoPage(p))
  {
  }

  /** The list a selection page shows; its length is the modulus the cursor cycles by. */
  function Options(p: Page): (opts: seq<string>)
    requires IsSelectionPage(p)
    ensures 2 <= |opts| <= 4
  {
    match p
    case Filesystem => FilesystemOptions
    case Kernel => KernelOptions
    case GpuDriver => GpuOptions
    case DesktopEnv => DesktopOptions
    case _ => YesNoOptions
  }

  /** The kernel choice stored for a cursor position; positions past the list store nothing. */
  function KernelAt(i: nat): (k: Option<KernelSelection>)
    ensures k.Some? <==> i < |KernelOptions|
    ensures k.Some? ==> KernelIndex(k.value) == i
  {
    match i
    case 0 => Some(Linux)
    case 1 => Some(LinuxLTS)
    case 2 => Some(Both)
    case _ => Option.None
  }

  /** The driver stored for a cursor position; positions past the list store nothing. */
  function GpuAt(i: nat): (g: Option<GpuDriver>)
    ensures g.Some? <==> i < |GpuOptions|
    ensures g.Some? ==> GpuIndex(g.value) == i
  {
    match i
    case 0 => Some(Intel)
    case 1 => Some(AMD)
    case 2 => Some(Nvidia)
    case 3 => Some(GpuDriver.None)
    case _ => Option.None
  }

  /** The desktop stored for a cursor position; positions past the list store nothing. */
  function DesktopAt(i: nat): (d: Option<DesktopEnv>)
    ensures d.Some? <==> i < |DesktopOptions|
    ensures d.Some? ==> DesktopIndex(d.value) == i
  {
    match i
    case 0 => Some(DesktopEnv.None)
    case 1 => Some(KDE)
    case 2 => Some(GNOME)
    case 3 => Some(GnomeLockKDE)
    case _ => Option.None
  }

  /** The list position showing a kernel choice. */
  function KernelIndex(k: KernelSelection): (i: nat)
    ensures i < |KernelOptions|
  {
    match k
    case Linux => 0
    case LinuxLTS => 1
    case Both => 2
  }

  /** The list position showing a driver. */
  function GpuIndex(g: GpuDriver): (i: nat)
    ensures i < |GpuOptions|
  {
    match g
    case Intel => 0
    case AMD => 1
    case Nvidia => 2
    case None => 3
  }

  /** The list position showing a desktop. */
  function DesktopIndex(d: DesktopEnv): (i: nat)
    ensures i < |DesktopOptions|
  {
    match d
    case None => 0
    case KDE => 1
    case GNOME => 2
    case GnomeLockKDE => 3
  }

  /** Positions and variants correspond one to one: every variant is stored from its own position. */
  lemma VariantsRoundTrip(k: KernelSelection, g: GpuDriver, d: DesktopEnv)
    ensures KernelAt(KernelIndex(k)) == Some(k)
    ensures GpuAt(GpuIndex(g)) == Some(g)
    ensures DesktopAt(DesktopIndex(d)) == Some(d)
  {
  }

  /** The first position of `x` in `xs` (`Iterator::position`), if it occurs. */
  function Position(xs: seq<string>, x: string): (r: Option<nat>)
    ensures r.Some? <==> x in xs
    ensures r.Some? ==> r.value < |xs| && xs[r.value] == x
    ensures r.Some? ==> forall j :: 0 <= j < r.value ==> xs[j] != x
  {
    if xs == [] then Option.None
    else if xs[0] == x then Some(0)
    else match Position(xs[1..], x)
      case Some(i) => Some(i + 1)
      case None => Option.None
  }

  /** The row the Filesystem list highlights: the stored name's position, the first row when unset or unknown. */
  function FilesystemDisplayIndex(fs: Option<string>): (i: nat)
    ensures i < |FilesystemOptions|
    ensures fs.UnwrapOr("ext4") in FilesystemOptions ==> FilesystemOptions[i] == fs.UnwrapOr("ext4")
    ensures fs.UnwrapOr("ext4") !in FilesystemOptions ==> i == 0
  {
    Position(FilesystemOptions, fs.UnwrapOr("ext4")).UnwrapOr(0)
  }

  /** The row the Kernel list highlights: the stored choice, "both" when unset. */
  function KernelDisplayIndex(k: Option<KernelSelection>): (i: nat)
    ensures i < |KernelOptions|
    ensures KernelAt(i) == Some(k.UnwrapOr(Both))
  {
    KernelIndex(k.UnwrapOr(Both))
  }

  /** The row the GPU list highlights: the stored driver, "None" when unset. */
  function GpuDisplayIndex(g: Option<GpuDriver>): (i: nat)
    ensures i < |GpuOptions|
    ensures GpuAt(i) == Some(g.UnwrapOr(GpuDriver.None))
  {
    GpuIndex(g.UnwrapOr(GpuDriver.None))
  }

  /** The row the desktop list highlights: the stored desktop, "None" when unset. */
  function DesktopDisplayIndex(d: Option<DesktopEnv>): (i: nat)
    ensures i < |DesktopOptions|
    ensures DesktopAt(i) == Some(d.UnwrapOr(DesktopEnv.None))
  {
    DesktopIndex(d.UnwrapOr(DesktopEnv.None))
  }

  /**
   The row a selection page highlights when drawn. The two yes/no pages show
   the cursor; the other four show the stored answer and ignore the cursor.
   */
  function HighlightedIndex(w: Wizard): (i: nat)
    requires IsSelectionPage(w.app.page)
    ensures (w.app.page.GrubInstall? || w.app.page.RootFormat?) ==> i == w.selectIdx
    ensures i == w.selectIdx || i < |Options(w.app.page)|
    ensures w.app.page == Filesystem ==> i == FilesystemDisplayIndex(w.app.filesystem)
    ensures w.app.page == Kernel ==> KernelAt(i) == Some(w.app.kernel.UnwrapOr(Both))
    ensures w.app.page == Page.GpuDriver ==> GpuAt(i) == Some(w.app.gpuDriver.UnwrapOr(GpuDriver.None))
    ensures w.app.page == Page.DesktopEnv ==> DesktopAt(i) == Some(w.app.desktopEnv.UnwrapOr(DesktopEnv.None))
  {
    match w.app.page
    case Filesystem => FilesystemDisplayIndex(w.app.filesystem)
    case Kernel => KernelDisplayIndex(w.app.kernel)
    case GpuDriver => GpuDisplayIndex(w.app.gpuDriver)
    case DesktopEnv => DesktopDisplayIndex(w.app.desktopEnv)
    case _ => w.selectIdx
  }

  /** The stored answer of free-text page `p`. */
  function TextAnswer(app: AppState, p: Page): Option<string>
    requires IsTextPage(p)
  {
    match p
    case EfiPartition => app.efiPartition
    case RootPartition => app.rootPartition
    case Locale => app.locale
    case Hostname => app.hostname
    case Username => app.username
  }

  /** What a free-text page's box draws: the page's stored answer, nothing when unset. The buffer being typed is not drawn. */
  function ShownText(app: AppState): (t: string)
    requires IsTextPage(app.page)
    ensures app.page == EfiPartition ==> t == app.efiPartition.UnwrapOr("")
    ensures app.page == RootPartition ==> t == app.rootPartition.UnwrapOr("")
    ensures app.page == Locale ==> t == app.locale.UnwrapOr("")
    ensures app.page == Hostname ==> t == app.hostname.UnwrapOr("")
    ensures app.page == Username ==> t == app.username.UnwrapOr("")
  {
    TextAnswer(app, app.page).UnwrapOr("")
  }

  /**
   Enter on a selection page: the answer the cursor stands on, written into
   the page's own field. `None` is the panic of indexing the filesystem list
   past its end; the three enum pages store an unset answer instead.
   */
  function Commit(app: AppState, idx: nat): (r: Option<AppState>)
    requires IsSelectionPage(app.page)
    ensures r.None? <==> app.page == Filesystem && idx >= |FilesystemOptions|
    ensures r.Some? ==> r.value.page == app.page && SameAnswersOutside(app, r.value, app.page)
    ensures r.Some? && app.page == GrubInstall ==> r.value.installGrub == Some(idx == 0)
    ensures r.Some? && app.page == RootFormat ==> r.value.formatRoot == Some(idx == 0)
    ensures r.Some? && app.page == Filesystem ==> r.value.filesystem == Some(FilesystemOptions[idx])
    ensures r.Some? && app.page == Kernel ==> r.value.kernel == KernelAt(idx)
    ensures r.Some? && app.page == Page.GpuDriver ==> r.value.gpuDriver == GpuAt(idx)
    ensures r.Some? && app.page == Page.DesktopEnv ==> r.value.desktopEnv == DesktopAt(idx)
  {
    match app.page
    case GrubInstall => Some(app.(installGrub := Some(idx == 0)))
    case RootFormat => Some(app.(formatRoot := Some(idx == 0)))
    case Filesystem =>
      if idx < |FilesystemOptions| then Some(app.(filesystem := Some(FilesystemOptions[idx]))) else Option.None
    case Kernel => Some(app.(kernel := KernelAt(idx)))
    case GpuDriver => Some(app.(gpuDriver := GpuAt(idx)))
    case DesktopEnv => Some(app.(desktopEnv := DesktopAt(idx)))
  }

  /** Enter on a free-text page: `text` becomes the page's own answer and nothing else changes. */
  function StoreText(app: AppState, text: string): (r: AppState)
    requires IsTextPage(app.page)
    ensures r.page == app.page && SameAnswersOutside(app, r, app.page)
    ensures app.page == EfiPartition ==> r.efiPartition == Some(text)
    ensures app.page == RootPartition ==> r.rootPartition == Some(text)
    ensures app.page == Locale ==> r.locale == Some(text)
    ensures app.page == Hostname ==> r.hostname == Some(text)
    ensures app.page == Username ==> r.username == Some(text)
  {
    match app.page
    case EfiPartition => app.(efiPartition := Some(text))
    case RootPartition => app.(rootPartition := Some(text))
    case Locale => app.(locale := Some(text))
    case Hostname => app.(hostname := Some(text))
    case Username => app.(username := Some(text))
  }

  /** `next_page` followed by resetting the cursor. */
  function Advance(w: Wizard): Wizard {
    w.(app := w.app.(page := NextPage(w.app.page)), selectIdx := 0)
  }

  /** `prev_page` followed by resetting the cursor. */
  function Retreat(w: Wizard): Wizard {
    w.(app := w.app.(page := PrevPage(w.app.page)), selectIdx := 0)
  }

  /** Keys on a selection page: the arrows cycle the cursor, Enter commits and advances, Esc and Backspace go back. */
  function SelectionKey(w: Wizard, code: KeyCode): (o: Outcome)
    requires IsSelectionPage(w.app.page)
    ensures !o.Quit?
    ensures o.Panic? <==> w.app.page == Filesystem && code == Enter && w.selectIdx >= |FilesystemOptions|
    ensures o.Running? ==> Moved(w, o.next) && SameAnswersOutside(w.app, o.next.app, w.app.page)
    ensures Wf(w) ==> !o.Panic? && (o.Running? ==> Wf(o.next))
    ensures (code.Char? || code == OtherKey) ==> o == Running(w)
  {
    var n := |Options(w.app.page)|;
    match code
    case Up => Running(w.(selectIdx := (w.selectIdx + n - 1) % n))
    case Down => Running(w.(selectIdx := (w.selectIdx + 1) % n))
    case Enter =>
      (match Commit(w.app, w.selectIdx)
       case Some(app) => Running(Advance(w.(app := app)))
       case None => Panic)
    case Esc => Running(Retreat(w))
    case Backspace => Running(Retreat(w))
    case _ => Running(w)
  }

  /**
   Keys on a free-text page. Backspace is matched before the empty-buffer
   guard, so it only ever deletes; only Esc on an empty buffer goes back.
   */
  function TextKey(w: Wizard, code: KeyCode): (o: Outcome)
    requires IsTextPage(w.app.page)
    ensures o.Running? && Moved(w, o.next) && SameAnswersOutside(w.app, o.next.app, w.app.page)
    ensures Wf(w) ==> Wf(o.next)
    ensures (code == Up || code == Down || code == OtherKey) ==> o == Running(w)
  {
    match code
    case Char(c) => Running(w.(input := w.input + [c]))
    case Backspace => Running(w.(input := if w.input == [] then [] else w.input[..|w.input| - 1]))
    case Enter => Running(Advance(w.(app := StoreText(w.app, Text.Trim(w.input)), input := [])))
    case Esc => if w.input == [] then Running(Retreat(w)) else Running(w)
    case _ => Running(w)
  }

  /** Enter and Esc on the informational pages between the first and the last. */
  function InfoKey(w: Wizard, code: KeyCode, onEnter: Wizard): (o: Outcome)
    requires w.app.page.UserPassword? || w.app.page.RootPassword? || w.app.page.Summary?
    requires onEnter.app.page == w.app.page && onEnter.input == w.input
    requires SameAnswersOutside(w.app, onEnter.app, w.app.page)
    ensures o.Running? && Moved(w, o.next) && SameAnswersOutside(w.app, o.next.app, w.app.page)
    ensures Wf(w) ==> Wf(o.next)
  {
    if code == Enter then Running(Advance(onEnter))
    else if code == Esc then Running(Retreat(w))
    else Running(w)
  }

  /**
   The loop's state is consistent: the cursor lies inside the current
   selection list and is zero elsewhere, and the text buffer is empty off the
   free-text pages.
   */
  predicate Wf(w: Wizard) {
    && (IsSelectionPage(w.app.page) ==> w.selectIdx < |Options(w.app.page)|)
    && (!IsSelectionPage(w.app.page) ==> w.selectIdx == 0)
    && (!IsTextPage(w.app.page) ==> w.input == [])
  }

  /**
   From `w` to `v` the page moved at most one step along the walk, and the
   cursor was reset if it moved at all.
   */
  predicate Moved(w: Wizard, v: Wizard) {
    && (v.app.page == w.app.page || v.app.page == NextPage(w.app.page) || v.app.page == PrevPage(w.app.page))
    && (v.app.page != w.app.page ==> v.selectIdx == 0)
  }

  /** The prompt each password page hands to the dialog. */
  function PasswordPrompt(p: Page): string
    requires p == UserPassword || p == RootPassword
  {
    if p == UserPassword then UserPasswordPrompt else RootPasswordPrompt
  }

  /** Each password page's prompt routes the secret to that page's own field. */
  lemma PasswordPromptRoutes(p: Page)
    requires p == UserPassword || p == RootPassword
    ensures p == UserPassword ==> !IsRootPrompt(PasswordPrompt(p))
    ensures p == RootPassword ==> IsRootPrompt(PasswordPrompt(p))
  {
    UserPromptRoutesToUser();
    RootPromptRoutesToRoot();
  }

  /**
   Enter on a password page: the dialog is asked under the page's prompt and
   its answer becomes the page's own password.
   */
  function AskPassword(app: AppState, ask: string -> string): (r: AppState)
    requires app.page == UserPassword || app.page == RootPassword
    ensures r.page == app.page && SameAnswersOutside(app, r, app.page)
    ensures app.page == UserPassword ==> r.userPassword == Some(ask(UserPasswordPrompt))
    ensures app.page == RootPassword ==> r.rootPassword == Some(ask(RootPasswordPrompt))
  {
    StoreSecret(app, app.page == RootPassword, ask(PasswordPrompt(app.page)))
  }

  /** What a password page does on Enter is `prompt_password` called with the page's prompt. */
  lemma AskPasswordIsPromptPassword(app: AppState, ask: string -> string)
    requires app.page == UserPassword || app.page == RootPassword
    ensures AskPassword(app, ask) == PromptPassword(app, PasswordPrompt(app.page), ask)
  {
    PasswordPromptRoutes(app.page);
  }

  /** The first page: Enter starts the walk, every other key is ignored. */
  function WelcomeKey(w: Wizard, code: KeyCode): (o: Outcome)
    requires w.app.page == Welcome
    ensures o.Running? && Moved(w, o.next) && o.next.app == w.app.(page := o.next.app.page)
    ensures Wf(w) ==> Wf(o.next)
    ensures code == Enter ==> o.next.app.page == GrubInstall && o.next.selectIdx == 0 && o.next.input == w.input
    ensures code != Enter ==> o == Running(w)
  {
    if code == Enter then Running(Advance(w)) else Running(w)
  }

  /** The last page: Esc or "q" breaks the loop, every other key is ignored. */
  function FinishedKey(w: Wizard, code: KeyCode): (o: Outcome)
    requires w.app.page == Finished
    ensures !o.Panic?
    ensures o.Quit? <==> code == Esc || code == Char('q')
    ensures o.Running? ==> o.next == w
  {
    if code == Esc || code == Char('q') then Quit else Running(w)
  }

  /** The page-by-page dispatch of one key press. */
  function KeyStep(w: Wizard, code: KeyCode, ask: string -> string): (o: Outcome)
    ensures o.Quit? <==> w.app.page == Finished && (code == Esc || code == Char('q'))
    ensures o.Panic? <==> w.app.page == Filesystem && code == Enter && w.selectIdx >= |FilesystemOptions|
    ensures o.Running? ==> Moved(w, o.next) && SameAnswersOutside(w.app, o.next.app, w.app.page)
    ensures Wf(w) ==> !o.Panic? && (o.Running? ==> Wf(o.next))
  {
    var p := w.app.page;
    if IsSelectionPage(p) then SelectionKey(w, code)
    else if IsTextPage(p) then TextKey(w, code)
    else if p == Welcome then WelcomeKey(w, code)
    else if p == Finished then FinishedKey(w, code)
    else if p == Summary then InfoKey(w, code, w)
    else InfoKey(w, code, w.(app := AskPassword(w.app, ask)))
  }

  /**
   One iteration of the event loop that reads `e`. `ask` is the masked
   password dialog, called only by Enter on the two password pages.
   */
  function Step(w: Wizard, e: Event, ask: string -> string): (o: Outcome)
    ensures o.Quit? <==> w.app.page == Finished && (e == Key(Esc) || e == Key(Char('q')))
    ensures o.Panic? <==> w.app.page == Filesystem && e == Key(Enter) && w.selectIdx >= |FilesystemOptions|
    ensures o.Running? ==> Moved(w, o.next)
    ensures o.Running? ==> SameAnswersOutside(w.app, o.next.app, w.app.page)
    ensures Wf(w) ==> !o.Panic? && (o.Running? ==> Wf(o.next))
    ensures e == Idle ==> o == Running(w)
  {
    match e
    case Idle => Running(w)
    case Key(code) => KeyStep(w, code, ask)
  }

  /** Down on a selection page only moves the cursor one row forward, wrapping to the first row. */
  lemma DownMovesCursor(w: Wizard, ask: string -> string)
    requires IsSelectionPage(w.app.page)
    ensures Step(w, Key(Down), ask) == Running(w.(selectIdx := (w.selectIdx + 1) % |Options(w.app.page)|))
  {
    assert KeyStep(w, Down, ask) == SelectionKey(w, Down);
  }

  /** Up on a selection page only moves the cursor one row back, wrapping to the last row. */
  lemma UpMovesCursor(w: Wizard, ask: string -> string)
    requires IsSelectionPage(w.app.page)
    ensures Step(w, Key(Up), ask) == Running(w.(selectIdx := (w.selectIdx + |Options(w.app.page)| - 1) % |Options(w.app.page)|))
  {
    assert KeyStep(w, Up, ask) == SelectionKey(w, Up);
  }

  /** Below twice the modulus, `%` subtracts the modulus at most once. */
  lemma ModOnce(x: int, n: int)
    requires 0 <= x < 2 * n
    ensures x % n == if x < n then x else x - n
  {
    if x < n {
      assert x == 0 * n + x;
    } else {
      assert x == 1 * n + (x - n);
    }
  }

  /** Moving a cursor inside a list of `n` rows one row forward or back modulo `n` wraps only at the ends. */
  lemma CursorWraps(i: nat, n: nat)
    requires i < n
    ensures (i + 1) % n == if i + 1 == n then 0 else i + 1
    ensures (i + n - 1) % n == if i == 0 then n - 1 else i - 1
  {
    ModOnce(i + 1, n);
    ModOnce(i + n - 1, n);
  }

  /** From a consistent state, Down moves to the next row, and from the last row to the first. */
  lemma DownWraps(w: Wizard, ask: string -> string)
    requires Wf(w) && IsSelectionPage(w.app.page)
    ensures Step(w, Key(Down), ask)
         == Running(w.(selectIdx := if w.selectIdx + 1 == |Options(w.app.page)| then 0 else w.selectIdx + 1))
  {
    DownMovesCursor(w, ask);
    CursorWraps(w.selectIdx, |Options(w.app.page)|);
  }

  /** From a consistent state, Up moves to the previous row, and from the first row to the last. */
  lemma UpWraps(w: Wizard, ask: string -> string)
    requires Wf(w) && IsSelectionPage(w.app.page)
    ensures Step(w, Key(Up), ask)
         == Running(w.(selectIdx := if w.selectIdx == 0 then |Options(w.app.page)| - 1 else w.selectIdx - 1))
  {
    UpMovesCursor(w, ask);
    CursorWraps(w.selectIdx, |Options(w.app.page)|);
  }

  /** On a selection page Down keeps the cursor inside the list, and Up undoes it. */
  lemma UpUndoesDown(w: Wizard, ask: string -> string)
    requires Wf(w) && IsSelectionPage(w.app.page)
    ensures var o := Step(w, Key(Down), ask);
      && o.Running?
      && o.next.selectIdx < |Options(w.app.page)|
      && Step(o.next, Key(Up), ask) == Running(w)
  {
    var n := |Options(w.app.page)|;
    var d := if w.selectIdx + 1 == n then 0 else w.selectIdx + 1;
    DownWraps(w, ask);
    UpWraps(w.(selectIdx := d), ask);
    assert w.(selectIdx := d).(selectIdx := if d == 0 then n - 1 else d - 1) == w;
  }

  /** On a selection page Up keeps the cursor inside the list, and Down undoes it. */
  lemma DownUndoesUp(w: Wizard, ask: string -> string)
    requires Wf(w) && IsSelectionPage(w.app.page)
    ensures var o := Step(w, Key(Up), ask);
      && o.Running?
      && o.next.selectIdx < |Options(w.app.page)|
      && Step(o.next, Key(Down), ask) == Running(w)
  {
    var n := |Options(w.app.page)|;
    var u := if w.selectIdx == 0 then n - 1 else w.selectIdx - 1;
    UpWraps(w, ask);
    DownWraps(w.(selectIdx := u), ask);
    assert w.(selectIdx := u).(selectIdx := if u + 1 == n then 0 else u + 1) == w;
  }

  /**
   Enter on a selection page, from a consistent state, stores the option under
   the cursor into the page's own field, resets the cursor and advances one
   page. On the three enum pages the stored answer is always set: the arms
   that would store nothing are unreachable.
   */
  lemma SelectionEnterCommits(w: Wizard, ask: string -> string)
    requires Wf(w) && IsSelectionPage(w.app.page)
    ensures Step(w, Key(Enter), ask).Running?
    ensures var v := Step(w, Key(Enter), ask).next;
      && v.app.page == NextPage(w.app.page)
      && v.selectIdx == 0
      && v.input == w.input
      && SameAnswersOutside(w.app, v.app, w.app.page)
      && (w.app.page == GrubInstall ==> v.app.installGrub == Some(w.selectIdx == 0))
      && (w.app.page == RootFormat ==> v.app.formatRoot == Some(w.selectIdx == 0))
      && (w.app.page == Filesystem ==> v.app.filesystem == Some(FilesystemOptions[w.selectIdx]))
      && (w.app.page == Kernel ==> v.app.kernel.Some? && KernelIndex(v.app.kernel.value) == w.selectIdx)
      && (w.app.page == Page.GpuDriver ==> v.app.gpuDriver.Some? && GpuIndex(v.app.gpuDriver.value) == w.selectIdx)
      && (w.app.page == Page.DesktopEnv ==> v.app.desktopEnv.Some? && DesktopIndex(v.app.desktopEnv.value) == w.selectIdx)
  {
  }

  /** Esc and Backspace on a selection page go back one page with the cursor reset and the answers untouched. */
  lemma SelectionBackGoesBack(w: Wizard, code: KeyCode, ask: string -> string)
    requires IsSelectionPage(w.app.page) && (code == Esc || code == Backspace)
    ensures Step(w, Key(code), ask) == Running(Wizard(w.app.(page := PrevPage(w.app.page)), w.input, 0))
  {
  }

  /** Typing on a free-text page edits only the buffer: a character is appended, Backspace drops the last one and never leaves the page. */
  lemma TypingEditsBuffer(w: Wizard, c: char, ask: string -> string)
    requires IsTextPage(w.app.page)
    ensures Step(w, Key(Char(c)), ask) == Running(w.(input := w.input + [c]))
    ensures w.input != [] ==> Step(w, Key(Backspace), ask) == Running(w.(input := w.input[..|w.input| - 1]))
    ensures w.input == [] ==> Step(w, Key(Backspace), ask) == Running(w)
  {
  }

  /**
   Enter on a free-text page stores the trimmed buffer as the page's answer,
   touches no other answer, empties the buffer and advances one page.
   */
  lemma TextEnterStoresTrimmed(w: Wizard, ask: string -> string)
    requires IsTextPage(w.app.page)
    ensures Step(w, Key(Enter), ask).Running?
    ensures var v := Step(w, Key(Enter), ask).next;
      && v.app.page == NextPage(w.app.page)
      && v.input == []
      && v.selectIdx == 0
      && SameAnswersOutside(w.app, v.app, w.app.page)
      && (w.app.page == EfiPartition ==> v.app.efiPartition == Some(Text.Trim(w.input)))
      && (w.app.page == RootPartition ==> v.app.rootPartition == Some(Text.Trim(w.input)))
      && (w.app.page == Locale ==> v.app.locale == Some(Text.Trim(w.input)))
      && (w.app.page == Hostname ==> v.app.hostname == Some(Text.Trim(w.input)))
      && (w.app.page == Username ==> v.app.username == Some(Text.Trim(w.input)))
  {
  }

  /** Esc on a free-text page goes back exactly when the buffer is empty, and otherwise does nothing. */
  lemma TextEscapeNeedsEmptyBuffer(w: Wizard, ask: string -> string)
    requires IsTextPage(w.app.page)
    ensures w.input == [] ==> Step(w, Key(Esc), ask) == Running(Wizard(w.app.(page := PrevPage(w.app.page)), w.input, 0))
    ensures w.input != [] ==> Step(w, Key(Esc), ask) == Running(w)
  {
  }

  /** Enter on the user-password page stores what the dialog returns for its prompt as the user password and advances. */
  lemma UserPasswordEnter(w: Wizard, ask: string -> string)
    requires w.app.page == UserPassword
    ensures Step(w, Key(Enter), ask).Running?
    ensures var v := Step(w, Key(Enter), ask).next;
      && v.app.page == RootPassword
      && v.app.userPassword == Some(ask(UserPasswordPrompt))
  {
    assert Step(w, Key(Enter), ask) == InfoKey(w, Enter, w.(app := AskPassword(w.app, ask)));
  }

  /** Enter on the root-password page stores what the dialog returns for its prompt as the root password and advances. */
  lemma RootPasswordEnter(w: Wizard, ask: string -> string)
    requires w.app.page == RootPassword
    ensures Step(w, Key(Enter), ask).Running?
    ensures var v := Step(w, Key(Enter), ask).next;
      && v.app.page == Kernel
      && v.app.rootPassword == Some(ask(RootPasswordPrompt))
  {
    assert Step(w, Key(Enter), ask) == InfoKey(w, Enter, w.(app := AskPassword(w.app, ask)));
  }

  /** Esc on the password pages and the summary goes back one page and changes no answer. */
  lemma InfoPagesEscapeGoesBack(w: Wizard, ask: string -> string)
    requires w.app.page == UserPassword || w.app.page == RootPassword || w.app.page == Summary
    ensures Step(w, Key(Esc), ask) == Running(Retreat(w))
  {
  }

  /**
   Keys other than Enter and Esc, and idle polls, change nothing on the
   informational pages. Welcome ignores Esc as well, since only Enter moves
   it (ui.rs:164).
   */
  lemma InfoPagesIgnoreOtherKeys(w: Wizard, e: Event, ask: string -> string)
    requires IsInfoPage(w.app.page)
    requires e != Key(Enter)
    requires w.app.page != Welcome ==> e != Key(Esc)
    requires w.app.page == Finished ==> e != Key(Char('q'))
    ensures Step(w, e, ask) == Running(w)
  {
    if e.Key? {
      var p := w.app.page;
      if p == Welcome {
        assert KeyStep(w, e.code, ask) == WelcomeKey(w, e.code);
      } else if p == Finished {
        assert KeyStep(w, e.code, ask) == FinishedKey(w, e.code);
      } else if p == Summary {
        assert KeyStep(w, e.code, ask) == InfoKey(w, e.code, w);
      } else {
        assert KeyStep(w, e.code, ask) == InfoKey(w, e.code, w.(app := AskPassword(w.app, ask)));
      }
    }
  }

  /** On the last page Enter does not move on, and only Esc or "q" ends the loop. */
  lemma FinishedOnlyQuits(w: Wizard, e: Event, ask: string -> string)
    requires w.app.page == Finished
    ensures Step(w, e, ask).Quit? <==> e == Key(Esc) || e == Key(Char('q'))
    ensures !Step(w, e, ask).Quit? ==> Step(w, e, ask) == Running(w)
  {
  }
}

=== FILE: ui_run.dfy ===
/**
 The event loop of src/ui.rs (`run_app`) as a whole: feeding it a sequence of
 events from the start-up state, what every reachable state satisfies, and
 the walks the wizard's behaviour promises end to end.
 */
module UiRun {
  import opened Wrappers
  import opened App
  import opened Ui
  import Text

  /** The loop's state when `run_app` is entered: default answers, an empty buffer, the cursor on the first row. */
  function Initial(): (w: Wizard)
    ensures Wf(w)
    ensures w.app.page == Welcome && w.input == [] && w.selectIdx == 0
  {
    Wizard(Default(), [], 0)
  }

  /** Runs the loop over `events` until they run out, it breaks, or it panics. */
  function Run(w: Wizard, events: seq<Event>, ask: string -> string): (o: Outcome)
    ensures events == [] ==> o == Running(w)
    ensures Wf(w) ==> !o.Panic? && (o.Running? ==> Wf(o.next))
    decreases |events|
  {
    if events == [] then Running(w)
    else
      match Step(w, events[0], ask)
      case Running(v) => Run(v, events[1..], ask)
      case Quit => Quit
      case Panic => Panic
  }

  /** A consistent state stays consistent whatever events follow, so the loop never panics. */
  lemma {:induction false} RunKeepsWf(w: Wizard, events: seq<Event>, ask: string -> string)
    requires Wf(w)
    ensures !Run(w, events, ask).Panic?
    ensures Run(w, events, ask).Running? ==> Wf(Run(w, events, ask).next)
    decreases |events|
  {
    if events != [] {
      var o := Step(w, events[0], ask);
      if o.Running? {
        RunKeepsWf(o.next, events[1..], ask);
      }
    }
  }

  /**
   Every state the loop reaches from start-up is consistent: the cursor is
   inside the list on a selection page and zero elsewhere, the buffer is empty
   off the free-text pages, and the filesystem list is never indexed past its
   end.
   */
  lemma ReachableStatesWf(events: seq<Event>, ask: string -> string)
    ensures !Run(Initial(), events, ask).Panic?
    ensures var o := Run(Initial(), events, ask);
      o.Running? ==>
        && (IsSelectionPage(o.next.app.page) ==> o.next.selectIdx < |Options(o.next.app.page)|)
        && (!IsSelectionPage(o.next.app.page) ==> o.next.selectIdx == 0)
        && (!IsTextPage(o.next.app.page) ==> o.next.input == [])
  {
    RunKeepsWf(Initial(), events, ask);
  }

  /** Running the concatenation of two event sequences runs the second from where the first stopped. */
  lemma {:induction false} RunAppend(w: Wizard, a: seq<Event>, b: seq<Event>, ask: string -> string)
    ensures Run(w, a + b, ask) == match Run(w, a, ask) case Running(v) => Run(v, b, ask) case o => o
    decreases |a|
  {
    if a == [] {
      assert a + b == b;
    } else {
      assert (a + b)[0] == a[0];
      assert (a + b)[1..] == a[1..] + b;
      var o := Step(w, a[0], ask);
      if o.Running? {
        RunAppend(o.next, a[1..], b, ask);
      }
    }
  }

  /** Running `e` followed by `es` is one step, then the rest from where that step left off. */
  lemma RunCons(w: Wizard, e: Event, es: seq<Event>, ask: string -> string)
    ensures Step(w, e, ask).Running? ==> Run(w, [e] + es, ask) == Run(Step(w, e, ask).next, es, ask)
    ensures !Step(w, e, ask).Running? ==> Run(w, [e] + es, ask) == Step(w, e, ask)
  {
    assert ([e] + es)[0] == e && ([e] + es)[1..] == es;
  }

  /** `n` copies of one event. */
  function Repeat(e: Event, n: nat): (es: seq<Event>)
    ensures |es| == n
    ensures forall i :: 0 <= i < n ==> es[i] == e
  {
    if n == 0 then [] else [e] + Repeat(e, n - 1)
  }

  /** The key presses that type `s`. */
  function Typing(s: string): (es: seq<Event>)
    ensures |es| == |s|
    ensures forall i :: 0 <= i < |s| ==> es[i] == Key(Char(s[i]))
  {
    if s == [] then [] else [Key(Char(s[0]))] + Typing(s[1..])
  }

  /** The row `k` presses of Down reach from row `i` of a list of `n` rows, stepping one row at a time and wrapping past the end. */
  function RowAfterDowns(i: nat, k: nat, n: nat): nat
    decreases k
  {
    if k == 0 then i else RowAfterDowns(if i + 1 == n then 0 else i + 1, k - 1, n)
  }

  /** Up to a full turn, the rows stepped through add up to `(i + k) % n`. */
  lemma {:induction false} RowAfterDownsIsMod(i: nat, k: nat, n: nat)
    requires i < n && k <= n
    ensures RowAfterDowns(i, k, n) == (i + k) % n
    ensures RowAfterDowns(i, k, n) == if i + k < n then i + k else i + k - n
    decreases k
  {
    ModOnce(i + k, n);
    if k > 0 {
      RowAfterDownsIsMod(if i + 1 == n then 0 else i + 1, k - 1, n);
    }
  }

  /** `k` presses of Down on a selection page only move the cursor, one row at a time, wrapping past the end. */
  lemma {:induction false} DownRepeated(w: Wizard, k: nat, ask: string -> string)
    requires Wf(w) && IsSelectionPage(w.app.page)
    ensures Run(w, Repeat(Key(Down), k), ask) == Running(w.(selectIdx := RowAfterDowns(w.selectIdx, k, |Options(w.app.page)|)))
    decreases k
  {
    if k > 0 {
      var n := |Options(w.app.page)|;
      var j := if w.selectIdx + 1 == n then 0 else w.selectIdx + 1;
      var v := w.(selectIdx := j);
      DownThenRest(w, k, ask);
      DownRepeated(v, k - 1, ask);
      assert v.(selectIdx := RowAfterDowns(j, k - 1, n)) == w.(selectIdx := RowAfterDowns(w.selectIdx, k, n));
    }
  }

  /** The first of `k` Down presses moves the cursor one row; the other `k - 1` start from there. */
  lemma DownThenRest(w: Wizard, k: nat, ask: string -> string)
    requires Wf(w) && IsSelectionPage(w.app.page) && 0 < k
    ensures Run(w, Repeat(Key(Down), k), ask)
         == Run(w.(selectIdx := if w.selectIdx + 1 == |Options(w.app.page)| then 0 else w.selectIdx + 1), Repeat(Key(Down), k - 1), ask)
  {
    DownWraps(w, ask);
    RunCons(w, Key(Down), Repeat(Key(Down), k - 1), ask);
  }

  /** Pressing Down once per option brings the cursor back to where it started. */
  lemma DownCycleReturns(w: Wizard, ask: string -> string)
    requires Wf(w) && IsSelectionPage(w.app.page)
    ensures Run(w, Repeat(Key(Down), |Options(w.app.page)|), ask) == Running(w)
  {
    var n := |Options(w.app.page)|;
    DownRepeated(w, n, ask);
    RowAfterDownsIsMod(w.selectIdx, n, n);
  }

  /**
   From a consistent state Enter always moves one page forward (the last page
   stays put), leaves the cursor on the first row and the buffer empty, and
   keeps the state consistent.
   */
  lemma EnterAdvances(w: Wizard, ask: string -> string)
    requires Wf(w)
    ensures Step(w, Key(Enter), ask).Running?
    ensures Step(w, Key(Enter), ask).next.app.page == NextPage(w.app.page)
    ensures Step(w, Key(Enter), ask).next.selectIdx == 0
    ensures Step(w, Key(Enter), ask).next.input == []
    ensures Wf(Step(w, Key(Enter), ask).next)
  {
    var p := w.app.page;
    if IsSelectionPage(p) {
      SelectionEnterCommits(w, ask);
    } else if IsTextPage(p) {
      TextEnterStoresTrimmed(w, ask);
    } else if p == UserPassword {
      UserPasswordEnter(w, ask);
    } else if p == RootPassword {
      RootPasswordEnter(w, ask);
    }
  }

  /** The first of `k` Enter presses moves one page forward; the other `k - 1` start from there. */
  lemma EnterThenRest(w: Wizard, k: nat, ask: string -> string)
    requires Wf(w) && 0 < k
    ensures Step(w, Key(Enter), ask).Running?
    ensures var v := Step(w, Key(Enter), ask).next;
      && Wf(v)
      && v.app.page == NextPage(w.app.page)
      && v.selectIdx == 0
      && v.input == []
      && SameAnswersOutside(w.app, v.app, w.app.page)
      && Run(w, Repeat(Key(Enter), k), ask) == Run(v, Repeat(Key(Enter), k - 1), ask)
  {
    EnterAdvances(w, ask);
    RunCons(w, Key(Enter), Repeat(Key(Enter), k - 1), ask);
  }

  /** `k` presses of Enter from a consistent state walk `k` pages forward and leave the cursor on the first row and the buffer empty. */
  lemma {:induction false} EntersWalk(w: Wizard, k: nat, ask: string -> string)
    requires Wf(w)
    ensures Run(w, Repeat(Key(Enter), k), ask).Running?
    ensures var v := Run(w, Repeat(Key(Enter), k), ask).next;
      && Wf(v)
      && v.app.page == NextPageN(w.app.page, k)
      && (k > 0 ==> v.selectIdx == 0 && v.input == [])
    decreases k
  {
    if k > 0 {
      EnterThenRest(w, k, ask);
      EntersWalk(Step(w, Key(Enter), ask).next, k - 1, ask);
    }
  }

  /** Enter presses that stop at or before page `p` leave `p`'s answer as it was: each press changes only the answer of a page before `p`. */
  lemma {:induction false} EntersKeepLaterAnswer(w: Wizard, k: nat, p: Page, ask: string -> string)
    requires Wf(w) && Ordinal(w.app.page) + k <= Ordinal(p)
    ensures Run(w, Repeat(Key(Enter), k), ask).Running?
    ensures SameAnswerOn(w.app, Run(w, Repeat(Key(Enter), k), ask).next.app, p)
    decreases k
  {
    if k > 0 {
      EnterThenRest(w, k, ask);
      var v := Step(w, Key(Enter), ask).next;
      EntersKeepLaterAnswer(v, k - 1, p, ask);
      OutsideKeepsOthers(w.app, v.app, w.app.page, p);
    }
  }

  /**
   From start-up, eleven presses of Enter (the Kernel page's position) reach
   that page, the dialogs opened by Enter on the two password pages being
   answered by `ask`, with the default kernel answer still stored and the cursor on
   the first row. The pages passed on the way store whatever their first
   row or their empty buffer holds. The count is a parameter pinned by the
   requires, so the verifier does not unfold the eleven steps literally.
   */
  lemma EntersReachKernel(k: nat, ask: string -> string)
    requires k == 11
    ensures Run(Initial(), Repeat(Key(Enter), k), ask).Running?
    ensures var v := Run(Initial(), Repeat(Key(Enter), k), ask).next;
      && Wf(v)
      && v.app.page == Kernel
      && v.selectIdx == 0
      && v.app.kernel == Some(Both)
  {
    EntersWalk(Initial(), k, ask);
    EntersKeepLaterAnswer(Initial(), k, Kernel, ask);
    NextPageNOrdinal(Welcome, k);
    PagesAtOrdinal(NextPageN(Welcome, k));
  }

  /**
   From start-up, six presses of Enter (the Locale page's position) reach
   that page with the default locale still stored and an empty buffer. The
   count is pinned by the requires, as for `EntersReachKernel`.
   */
  lemma EntersReachLocale(k: nat, ask: string -> string)
    requires k == 6
    ensures Run(Initial(), Repeat(Key(Enter), k), ask).Running?
    ensures var v := Run(Initial(), Repeat(Key(Enter), k), ask).next;
      && Wf(v)
      && v.app.page == Locale
      && v.input == []
      && v.app.locale == Some("en_US.UTF-8")
  {
    var w := Initial();
    EntersWalk(w, k, ask);
    EntersKeepLaterAnswer(w, k, Locale, ask);
    var v := Run(w, Repeat(Key(Enter), k), ask).next;
    assert v.app.locale == w.app.locale;
    NextPageNOrdinal(Welcome, k);
    PagesAtOrdinal(NextPageN(Welcome, k));
  }

  /**
   Fifteen presses of Enter from start-up walk through every page to the
   last one. They do not keep the defaults: each page stores its first row
   or its empty buffer.
   */
  lemma FifteenEntersFinish(ask: string -> string)
    ensures Run(Initial(), Repeat(Key(Enter), 15), ask).Running?
    ensures Run(Initial(), Repeat(Key(Enter), 15), ask).next.app.page == Finished
  {
    EntersWalk(Initial(), 15, ask);
    WelcomeReachesFinished(15);
  }

  /** From start-up, Enter twice answers "Yes" to the bootloader question and lands on the EFI partition page. */
  lemma ScenarioInstallGrub(ask: string -> string)
    ensures Run(Initial(), [Key(Enter), Key(Enter)], ask).Running?
    ensures var v := Run(Initial(), [Key(Enter), Key(Enter)], ask).next;
      v.app.page == EfiPartition && v.app.installGrub == Some(true)
  {
    var w := Initial();
    var g := Step(w, Key(Enter), ask).next;
    assert g.app.page == GrubInstall && g.selectIdx == 0;
    SelectionEnterCommits(g, ask);
    assert [Key(Enter), Key(Enter)][1..] == [Key(Enter)];
  }

  /** Typing on a free-text page grows the buffer by what is typed and changes nothing else. */
  lemma {:induction false} TypingFills(w: Wizard, s: string, ask: string -> string)
    requires IsTextPage(w.app.page)
    ensures Run(w, Typing(s), ask) == Running(w.(input := w.input + s))
    decreases |s|
  {
    if s != [] {
      var v := w.(input := w.input + [s[0]]);
      TypeThenRest(w, s, ask);
      TypingFills(v, s[1..], ask);
      AppendFirst(w.input, s);
    }
  }

  /** Appending the first character of `s`, then the rest, appends `s`. */
  lemma AppendFirst(a: string, s: string)
    requires s != []
    ensures (a + [s[0]]) + s[1..] == a + s
  {
    assert s == [s[0]] + s[1..];
  }

  /** The first typed character goes onto the buffer; the rest is typed from there. */
  lemma TypeThenRest(w: Wizard, s: string, ask: string -> string)
    requires IsTextPage(w.app.page) && s != []
    ensures Run(w, Typing(s), ask) == Run(w.(input := w.input + [s[0]]), Typing(s[1..]), ask)
  {
    TypingEditsBuffer(w, s[0], ask);
    RunCons(w, Key(Char(s[0])), Typing(s[1..]), ask);
  }

  /** On a free-text page with an empty buffer, typing `s` and pressing Enter stores `s` trimmed and advances. */
  lemma TypeAndEnter(w: Wizard, s: string, ask: string -> string)
    requires IsTextPage(w.app.page) && w.input == []
    ensures Run(w, Typing(s) + [Key(Enter)], ask).Running?
    ensures var v := Run(w, Typing(s) + [Key(Enter)], ask).next;
      && v.app.page == NextPage(w.app.page)
      && v.input == []
      && SameAnswersOutside(w.app, v.app, w.app.page)
      && (w.app.page == EfiPartition ==> v.app.efiPartition == Some(Text.Trim(s)))
      && (w.app.page == RootPartition ==> v.app.rootPartition == Some(Text.Trim(s)))
      && (w.app.page == Locale ==> v.app.locale == Some(Text.Trim(s)))
      && (w.app.page == Hostname ==> v.app.hostname == Some(Text.Trim(s)))
      && (w.app.page == Username ==> v.app.username == Some(Text.Trim(s)))
  {
    TypingFills(w, s, ask);
    RunAppend(w, Typing(s), [Key(Enter)], ask);
    var t := w.(input := w.input + s);
    assert t.input == s;
    TextEnterStoresTrimmed(t, ask);
  }

  /** On the EFI partition page, a typed name without surrounding whitespace is stored exactly as typed. */
  lemma TypeTrimmedAndEnter(w: Wizard, s: string, ask: string -> string)
    requires w.app.page == EfiPartition && w.input == [] && Text.Trimmed(s)
    ensures Run(w, Typing(s) + [Key(Enter)], ask).Running?
    ensures var v := Run(w, Typing(s) + [Key(Enter)], ask).next;
      v.app.page == RootPartition && v.app.efiPartition == Some(s)
  {
    TypeAndEnter(w, s, ask);
    Text.TrimmedIsFixed(s);
  }

  /**
   Typing "/dev/sda1" and Enter on the EFI partition page stores it and moves
   on to the root partition page. The typed text is a parameter pinned by the
   requires, so the verifier does not unfold the typing literally.
   */
  lemma ScenarioEfiPartition(w: Wizard, typed: string, ask: string -> string)
    requires w.app.page == EfiPartition && w.input == []
    requires typed == "/dev/sda1"
    ensures Run(w, Typing(typed) + [Key(Enter)], ask).Running?
    ensures var v := Run(w, Typing(typed) + [Key(Enter)], ask).next;
      v.app.page == RootPartition && v.app.efiPartition == Some("/dev/sda1")
  {
    assert Text.Trimmed(typed);
    TypeTrimmedAndEnter(w, typed, ask);
  }

  /** Esc straight away on the EFI partition page goes back to the bootloader question. */
  lemma ScenarioEfiEscape(w: Wizard, ask: string -> string)
    requires w.app.page == EfiPartition && w.input == []
    ensures Step(w, Key(Esc), ask) == Running(Wizard(w.app.(page := GrubInstall), [], 0))
  {
    TextEscapeNeedsEmptyBuffer(w, ask);
  }

  /** Typing " foo " and Enter on the hostname page stores "foo". The typed text is pinned by the requires, as above. */
  lemma ScenarioHostnameTrim(w: Wizard, typed: string, ask: string -> string)
    requires w.app.page == Hostname && w.input == []
    requires typed == " foo "
    ensures Run(w, Typing(typed) + [Key(Enter)], ask).Running?
    ensures Run(w, Typing(typed) + [Key(Enter)], ask).next.app.hostname == Some("foo")
  {
    Text.TrimExample();
    TypeAndEnter(w, typed, ask);
  }
}

=== FILE: wrappers.dfy ===
/** The optional-value type the wizard's answers are stored in (Rust's `Option`). */
module Wrappers {

  datatype Option<+T> = None | Some(value: T) {

    /** The wrapped value, or `default` when unset (Rust's `unwrap_or`). */
    function UnwrapOr(default: T): (r: T)
      ensures Some? ==> r == value
      ensures None? ==> r == default
    {
      match this
      case Some(v) => v
      case None => default
    }
  }
}
